=== FILE: README.md ===
# Portfolio scroll coordinator and Shuffle effect — a Dafny model

This project models the two pieces of deterministic logic in a React
portfolio page.

- **The scroll coordinator of the page root** (`src/App.js`). It tracks four things:
  - which navigation tab is active;
  - whether a click-initiated ("programmatic") smooth scroll is in flight;
  - whether the 350 ms end-of-scroll debounce timer is pending;
  - whether the floating bottom navigation shows, and how far the hero has been scrolled through.

  It is modelled as an immutable `State` record and a pure `Step(state, event)` function. The events are a navigation click, a window scroll, a resize, the timer's expiry and one notification of the section IntersectionObserver. Pure functions cover the bottom-navigation threshold, the hero progress, the hero-name style and the capsule indicator position.
- **The Shuffle text effect** (`src/components/Shuffle.jsx`). This part covers:
  - how `build` lays text out as one glyph strip per non-space character, with its start and final offsets;
  - how `teardown` restores the host;
  - how `play` splits the strips into odd and even groups and schedules the even group;
  - how the `rootMargin` prop is matched and turned into the signed suffix of the scroll-trigger start position;
  - the hover and empty-strip guards.

Modules follow the source: `ScrollMetrics`, `Intersection` and `Coordinator`
model `src/App.js`. `Strips`, `Parity`, `RootMargin` and `Shuffle` model
`src/components/Shuffle.jsx`. `Wrappers` holds the `Option` type.

Notes on the model:

- **Ties among intersection ratios.** When several sections share the maximal intersection ratio, the observer callback's fold keeps the current best only when it is strictly greater, so the LATER entry wins a tie: see `Intersection.ReduceIsLastMax` and `Intersection.TieGoesToLater`.
- **The bottom-navigation threshold** is strict in the code (`scrollY > headerHeight + 50`). At exact equality the bar is hidden.
- **The programmatic-scroll flag.** Only a scroll event arms the debounce timer, and only the timer lowers the flag. A navigation click that causes no scroll event therefore leaves the flag up, and the observer's updates stay suppressed until the next scroll event of any origin (the click's own smooth scroll or the user's) is followed by the timer's expiry. An example is a click on the section the page is already aligned to. `Coordinator.PinnedWhileNavigating` states the suppression and `Coordinator.ScrollThenTimerReleases` the release.
- **The hero name.** It is written with no-break spaces (`SHIVU T J`), which are not the space character. All nine characters become strips: see `Strips.HeroNameHasNineStrips` and `Parity.HeroNameSchedule`.
- **Browser inputs.** Measurements are inputs: the scroll offset, header height, hero rectangle, observer entries and glyph widths. A random scramble pick is an input `draw(i, k)` in [0, 1). A number's text form is an input `fmt`.

## Model

| member | source | states |
|---|---|---|
| `Coordinator.Navigate` | src/App.js:89-98 | Without a mounted section node, nothing changes. Otherwise the tab is active at once, the flag is up, any pending timer is cancelled, and nothing else changes. |
| `Coordinator.OnScroll` | src/App.js:104-128 | A scroll never changes the tab or the flag. It (re)arms the timer exactly when the flag is up and leaves the timer alone otherwise. It sets the bottom navigation to `scrollY > header + 50`. With a mounted hero the progress becomes `Progress` of its rectangle; without one the progress is kept. |
| `Coordinator.TrackHero` | src/App.js:154-164 | A missing hero leaves the state as is. Otherwise the progress is recomputed from the rectangle and stays within [0, 1]. |
| `Coordinator.OnTimer` | src/App.js:107-109 | The expiry of a pending timer lowers the flag and disarms the timer. A cancelled timer never runs. Tab, navigation and progress are untouched. |
| `Coordinator.OnIntersect` | src/App.js:137-146 | The state is unchanged while the flag is up or when nothing intersects. Otherwise, when the entry at the last maximal position among the intersecting entries has an id that is one of the tabs, that id becomes the active tab and nothing else changes; when it has no id or an unknown one, nothing changes. Any new tab is the id of an intersecting entry whose ratio is at least every intersecting entry's ratio. |
| `Coordinator.Step` | src/App.js:13-18 | Every event preserves the invariant: the active tab is one of the tabs, progress is in [0, 1], and a pending timer implies the flag is up. |
| `Coordinator.Run` | src/App.js:15-22 | Any sequence of events preserves the invariant. |
| `Coordinator.ReachableInv` | src/App.js:16-18 | Every state reachable from the mounted page satisfies the invariant. |
| `Coordinator.OnlyTimerClearsFlag` | src/App.js:94-109 | The only event that lowers a raised flag is the expiry of a pending timer. |
| `Coordinator.PinnedWhileNavigating` | src/App.js:94-138 | While the flag is up, any run without a click or a timer expiry keeps the active tab and the flag, whatever scrolls and observer notifications arrive. |
| `Coordinator.ScrollThenTimerReleases` | src/App.js:104-109 | While the flag is up, any scroll event, whoever caused it, followed by the timer's expiry lowers the flag and leaves the tab as it was. |
| `Coordinator.IndexOf` | src/App.js:432 | `indexOf` gives -1 exactly for an absent value. Otherwise it gives the first position holding the value. |
| `Coordinator.IndicatorInRange` | src/App.js:429-441 | Under the invariant, the indicator index is 0..2 and the indicator lies inside the bar. Exactly one tab equals the active tab, so exactly one is `aria-selected`. |
| `Coordinator.ClickThenScrollScenario` | src/App.js:89-146 | A click on Projects followed by a scroll keeps Projects active against the observer. After the timer expires, the observer selects About with ratio 0.6 over Projects with 0.4. |
| `ScrollMetrics.NavThreshold` | src/App.js:124-128 | The bar shows iff `scrollY > header + 50`. It is hidden at exact equality and stays shown further down. |
| `ScrollMetrics.Progress` | src/App.js:160-162 | Progress is in [0, 1]. It is 0 while the hero top is at or below the viewport top, and 1 once it has scrolled 0.8·max(height, 1) past. In between it is the linear ramp `-top / (0.8·h)`. |
| `ScrollMetrics.ProgressMonotone` | src/App.js:160-162 | For a fixed height, progress never decreases as `-rect.top` grows. |
| `ScrollMetrics.HalfwayScenario` | src/App.js:160-162 | A 500 px hero scrolled 200 px past has progress 0.5. |
| `ScrollMetrics.StyleFor` | src/App.js:385 | For progress in [0, 1]: opacity is in [0, 1], translateY is in [-24, 0] and scale is in [0.95, 1]. At 0 the name is fully visible and untransformed; at 1 it is invisible. |
| `ScrollMetrics.StyleMonotone` | src/App.js:385 | More progress never raises opacity, position or scale. |
| `ScrollMetrics.ScrollTargetLanding` | src/App.js:89-93 | After scrolling to the click target, the section's top edge sits exactly 12 px below the header, so it is never hidden under it. The target is a document position: two measurements of the same section at different scroll offsets give the same target, and a taller header gives an earlier one. |
| `Intersection.VisibleFacts` | src/App.js:139 | The filter keeps exactly the intersecting entries: each kept entry is an intersecting input entry, and each intersecting input entry is kept. It is empty iff none intersects. |
| `Intersection.VisibleAppend` | src/App.js:139 | The filter distributes over concatenation, so it preserves order. |
| `Intersection.Reduce` | src/App.js:141 | The fold returns the seed or an element of the list, never with a smaller ratio than the seed. |
| `Intersection.ScanIsLastMax` | src/App.js:141 | Started from the last maximum of a prefix, the left-to-right scan ends at the last position of the maximal ratio of the whole list. |
| `Intersection.BestIndex` | src/App.js:141 | The selected position holds a maximal ratio, and every later position has a strictly smaller one. This position is unique. |
| `Intersection.ReduceFollowsScan` | src/App.js:141 | The fold seeded with the entry at any position agrees with the scan started from that position. |
| `Intersection.ReduceIsLastMax` | src/App.js:141 | The literal `reduce` returns the entry at the last position of the maximal ratio. |
| `Intersection.Choose` | src/App.js:139-141 | There is no choice iff nothing intersects. Otherwise the choice is an intersecting entry whose ratio is at least every intersecting entry's ratio; it is exactly the entry at `BestIndex` of the intersecting entries, the last one holding the maximal ratio. |
| `Intersection.GreaterRatioWins` | src/App.js:141 | Between ratios 0.6 and 0.4, the 0.6 entry is chosen. |
| `Intersection.TieGoesToLater` | src/App.js:141 | Between equal ratios, the later entry is chosen. |
| `Strips.Rolls` | src/components/Shuffle.jsx:62 | The roll count is at least 1 and at least `floor(shuffleTimes)`, and equals one of the two. |
| `Strips.ScrambleGlyph` | src/components/Shuffle.jsx:79-81 | With an empty charset the glyph is the source character. Otherwise it is a member of the charset. |
| `Strips.Middles` | src/components/Shuffle.jsx:76-83 | There are exactly `rolls` scramble glyphs, each the source character (empty charset) or a charset member. |
| `Strips.MkStrip` | src/components/Shuffle.jsx:64-128 | A strip has rolls + 2 glyphs. For "right", the real glyph leads and the strip slides from -(rolls+1)·w to 0. Otherwise it slides from 0 to -(rolls+1)·w and ends with the real glyph. The travel is (rolls+1)·abs(w), and every glyph is the source character or from the charset. With a non-empty charset every one of the `rolls` scramble positions (1..rolls, or 2..rolls+1 for "right") holds a charset glyph; with an empty one every glyph is the source character. |
| `Strips.RightIsRotation` | src/components/Shuffle.jsx:116-122 | The "right" strip's glyphs are the default strip's glyphs with the last one, the real glyph, rotated to the front. |
| `Strips.RestsOnSourceChar` | src/components/Shuffle.jsx:116-125 | In both directions the strip comes to rest showing its source character. For directions other than "right" it also starts on it. |
| `Strips.StripsFollowText` | src/components/Shuffle.jsx:107-131 | The strips correspond one for one, in text order, to the non-space characters. Each carries rolls + 2 glyphs. |
| `Strips.StripsFollowChars` | src/components/Shuffle.jsx:107-131 | Pieces that follow a text one for one (a space for each space, a strip carrying the character otherwise) yield strips that follow the non-space characters one for one, in order. |
| `Strips.NoSpaceKeepsAll` | src/components/Shuffle.jsx:108 | A text without the space character keeps every character as a strip. |
| `Strips.HeroNameHasNineStrips` | src/App.js:391 | The hero name, written with no-break spaces, yields nine strips. |
| `Parity.Odds` | src/components/Shuffle.jsx:167 | The odd group has `floor(n/2)` strips, and its j-th strip is strip 2j+1. |
| `Parity.Evens` | src/components/Shuffle.jsx:168 | The even group has `ceil(n/2)` strips, and its j-th strip is strip 2j. |
| `Parity.InterleaveSplit` | src/components/Shuffle.jsx:167-168 | Interleaving the even and odd groups gives back the strip list: they partition it by parity and preserve order. |
| `Parity.EvenStart` | src/components/Shuffle.jsx:169-170 | With no odd strips the even group starts at 0. Otherwise it starts at 0.7·(duration + (odd-1)·stagger), which lies within the odd group's span. For a positive duration and non-negative stagger, the start is 0 iff there are no odd strips. |
| `Parity.HeroNameSchedule` | src/App.js:390-397 | Nine strips with duration 0.35 and stagger 0.03 give 4 odd and 5 even strips, and the even group starts at 0.308 s. |
| `RootMargin.Parse` | src/components/Shuffle.jsx:190 | An accepted string is the text of a well-formed margin: a sign, a non-empty digit run, an optional `.digits`, and an optional unit. |
| `RootMargin.ParseText` | src/components/Shuffle.jsx:190 | The text of every well-formed margin is accepted and read back as that margin. |
| `RootMargin.ParseAcceptsExactlyPattern` | src/components/Shuffle.jsx:190 | The parse accepts exactly the strings of the pattern: optional `-`, digits, optional `.` and digits, optional unit px, em, rem or %. |
| `RootMargin.ParseUnit` | src/components/Shuffle.jsx:190 | The tail after the number is accepted only when it is empty or exactly one of px, em, rem and %, and the unit read writes back to that tail. |
| `RootMargin.DigitRun` | src/components/Shuffle.jsx:190 | The greedy `\d+` reads the whole leading digit run and stops at the first non-digit. |
| `RootMargin.Value` | src/components/Shuffle.jsx:191 | The parsed value has the written sign, and its magnitude lies in [w, w + 1), where w is the value of the whole digits: the whole digits are the integer part and the fraction adds less than 1. The exact value is stated by `RootMargin.ValueShift`. |
| `RootMargin.ValueShift` | src/components/Shuffle.jsx:190-191 | `parseFloat` of the matched number is exact: without a fraction the magnitude is the value of the whole digits; with one it is the integer written by the whole and fraction digits side by side, over ten to the number of fraction digits. |
| `RootMargin.DigitsAppend` | src/components/Shuffle.jsx:190-191 | Two digit runs written side by side are a digit run worth the first run times ten to the second's length, plus the second run. |
| `RootMargin.DecimalScaled` | src/components/Shuffle.jsx:191 | Whole digits plus the fraction group's value equal the joined digits over ten to the number of fraction digits. |
| `RootMargin.OneAndAHalf` | src/components/Shuffle.jsx:191 | `1.5em` is worth exactly 1.5. |
| `RootMargin.FracValue` | src/components/Shuffle.jsx:191 | The fraction group is worth a value in [0, 1), and 0 exactly when it is absent or all its digits are `0`. Its exact value, through the whole number, is stated by `RootMargin.ValueShift`. |
| `RootMargin.DigitsValueFacts` | src/components/Shuffle.jsx:191 | A digit run is worth 0 exactly when every digit is `0`, and it is worth less than 10 to the power of its length. |
| `RootMargin.Resolve` | src/components/Shuffle.jsx:190-192 | A rejected string gives 0 px. An accepted one gives exactly the parsed value, with its sign, and keeps its unit, defaulting to px. |
| `RootMargin.SignShift` | src/components/Shuffle.jsx:193 | There is no shift iff the value is 0. Negative values give `-=` and positive values give `+=`, with the absolute value and the unit. |
| `RootMargin.ShiftText` | src/components/Shuffle.jsx:193 | The suffix is empty iff there is no shift. Otherwise it begins with `-=` or `+=` according to the sign, and what follows the sign is exactly the formatted magnitude and then the unit. |
| `RootMargin.ShiftRendering` | src/components/Shuffle.jsx:193 | In terms of the margin's value: nothing for 0, `-=` with the formatted absolute value and the unit for a negative value, `+=` with the formatted value and the unit for a positive one. |
| `RootMargin.StartText` | src/components/Shuffle.jsx:189-194 | The start position begins with `top ` and is the head `top <pct>%` followed by exactly the shift text of the resolved margin. By case: the head alone for a zero margin; the head, `-=`, the formatted magnitude and the unit for a negative one; the head, `+=`, the formatted magnitude and the unit for a positive one. |
| `RootMargin.NegativeZeroHasNoShift` | src/components/Shuffle.jsx:193 | `-0` is accepted, has value 0 and gives no shift. |
| `RootMargin.ZeroIffZeroDigits` | src/components/Shuffle.jsx:191-193 | A matched margin is worth 0, and so gives no shift, exactly when all its whole and fraction digits are `0`. |
| `RootMargin.DefaultMarginParse` | src/components/Shuffle.jsx:18 | The default `-100px` is accepted as a negative margin of 100 with unit px. |
| `RootMargin.DefaultMargin` | src/components/Shuffle.jsx:18 | The default `-100px` resolves to -100 px and gives the shift `-=100px`. |
| `RootMargin.UnknownUnitRejected` | src/components/Shuffle.jsx:190-192 | `10vh` is rejected and reads as 0 px. |
| `Shuffle.Teardown` | src/components/Shuffle.jsx:40-52 | Teardown drops the strips, stops playing and kills the timeline. A mounted host gets back the text prop, or `''` when the prop is absent. |
| `Shuffle.Build` | src/components/Shuffle.jsx:54-134 | Without a host or with a falsy text, build is just teardown and gives no strips. Otherwise it produces one piece per character, in text order: a plain space for a space, and otherwise a wrapper holding the strip `MkStrip` builds for that character with the roll count, the direction, the charset and the measured width of the character. There is one strip per non-space character, each with rolls + 2 glyphs, and nothing is playing. |
| `Shuffle.GroupTweens` | src/components/Shuffle.jsx:169-172 | A group is tweened only when non-empty: the odd group at time 0 and the even group at its start time, odd first. This holds when both, one or neither group is non-empty. The tweens' targets, in order, are the odd group followed by the even group. |
| `Shuffle.Schedule` | src/components/Shuffle.jsx:166-179 | In even/odd mode the tweens' targets, in order, are the odd strips followed by the even strips, so with `Parity.InterleaveSplit` every strip is tweened in exactly one group. No tween is empty. With two or more strips, the odd group starts at 0 and the even group at `EvenStart`. A single strip is one tween at time 0, and no strips give no tween. Other modes tween each strip on its own. |
| `Shuffle.Play` | src/components/Shuffle.jsx:136-182 | With no strips, play is a no-op. Otherwise it starts playing the scheduled timeline over the same strips and host. |
| `Shuffle.Enter` | src/components/Shuffle.jsx:200-203 | Entering marks the component ready. With strips, it starts playing their schedule. |
| `Shuffle.Hover` | src/components/Shuffle.jsx:207-211 | Hover is ignored unless it is enabled and nothing is playing. Otherwise it rebuilds and replays. |
| `Shuffle.Complete` | src/components/Shuffle.jsx:141-148 | Completion of a non-looping timeline stops playing and changes nothing else. A looping timeline never completes. |
| `Shuffle.Unmount` | src/components/Shuffle.jsx:214-219 | Cleanup leaves no strips, no timeline, not playing and not ready. A mounted host gets its text back, and an absent host stays absent. |
| `Shuffle.HoverIgnoredWhilePlaying` | src/components/Shuffle.jsx:139-208 | Once a play with strips has started, a hover changes nothing. |
| `Shuffle.TeardownRestoresText` | src/components/Shuffle.jsx:45-49 | Teardown after any build restores the host's plain text. |
| `Shuffle.EmptyTextPlaysNothing` | src/components/Shuffle.jsx:57-138 | An empty text builds no strips, so playing it is a no-op. |
| `Shuffle.TriggerStart` | src/components/Shuffle.jsx:189-194 | The trigger's start position begins with `top ` and is `top <pct>%` for pct = (1 - threshold)·100 followed by exactly the shift text of the `rootMargin` prop: nothing for a zero margin, otherwise `-=` or `+=` with the formatted magnitude and the unit. |
| `Shuffle.Initial` | src/components/Shuffle.jsx:34-38 | After the first render and before the effect runs, the host element is empty: no strips, nothing playing, no timeline and not ready. This state keeps the invariant. |
| `Shuffle.Step` | src/components/Shuffle.jsx:136-219 | Every lifecycle event (setup, entering the viewport, hover, completion, cleanup) preserves the invariant. The strip list is exactly the strips laid out in the host, and empty while the host shows plain text. A timeline exists only over strips, and playing implies a timeline. |
| `Shuffle.Run` | src/components/Shuffle.jsx:136-219 | Any sequence of lifecycle events preserves the invariant. |
| `Shuffle.ReachableInv` | src/components/Shuffle.jsx:136-219 | Every state reached from the initial render keeps the invariant. Whenever it is playing, the host holds the laid-out pieces and there is at least one strip. |

## Left out

- The clock, the small-screen `matchMedia` check, the `.reveal` observer and the static markup of `src/App.js`. They are browser plumbing and presentation with no logic to state.
- The smooth-scroll animation and `window.scrollTo`. Only the target offset is modelled (`ScrollMetrics.ScrollTarget`).
- `requestAnimationFrame` coalescing of the hero-progress listener. The model applies the progress at the scroll or resize event itself.
- The 350 ms wall-clock duration of the debounce timer. The timer is abstract: armed, cancelled, or fired as an event.
- ScrollTrigger's `once` option (`triggerOnce`, src/components/Shuffle.jsx:199) is not modelled. The model lets `EnterView` recur, which is the behaviour with `triggerOnce` false; with it true, the browser simply delivers no second event.
- The section observer's `rootMargin` and `threshold` options. The browser computes the entries, and the model takes them as input.
- gsap and ScrollTrigger behaviour: easing, interpolation, colour tweens, `repeatDelay`, the `onShuffleComplete` callback and `force3D`. These are foreign library code.
- The `prefers-reduced-motion` check. It is a media query of the browser.
- `Math.random`: scramble picks are the input `draw`.
- Shuffle.Schedule: for modes other than "evenodd" the random per-strip delays in [0, maxDelay] are not recorded, only which strips are tweened.
- Number-to-text formatting (`startPct` and the margin value) is the parameter `fmt`. `parseFloat` is exact decimal arithmetic in the model, with no IEEE rounding.
- Shuffle.TriggerStart: the percentage and the shift magnitude appear as `fmt` of the number, because JavaScript's number-to-text formatting is not modelled.
- Glyph widths are a function of the character. The source measures a probe element per character, and the same font gives the same width for the same character.
- UTF-16 `split('')` details. Text is a sequence of characters.
- A `NaN` or infinite `shuffleTimes`. Reals have no such values.
- The decorative components (SplitText, ScrollReveal, ClickSpark, StarBorder, DotGrid, Dither), `src/index.js` and `src/components/LoadingShimmer.jsx`. They contain no logic of this core, and the decorative components' sources are not part of this model.

=== FILE: coordinator.dfy ===
/** The scroll coordinator of the page root (src/App.js) as a pure state
    machine: which tab is active, whether a click-initiated (programmatic)
    scroll is in flight, whether the 350 ms end-of-scroll debounce timer is
    pending, whether the bottom navigation shows, and the hero progress.
    Wall-clock time is abstract: the timer is either armed or not, and its
    expiry is the `TimerFire` event. */
module Coordinator {
  import opened Wrappers
  import opened Intersection
  import ScrollMetrics

  /** The navigation tabs, in display order. */
  const Tabs: seq<string> := ["About", "Projects", "Let's Connect"]

  datatype State = State(
    activeTab: string,
    programmaticScroll: bool,
    timerArmed: bool,
    showBottomNav: bool,
    heroProgress: real)

  datatype Event =
    /** A navigation click; `nodePresent` says whether the tab's section element is mounted. */
    | NavigateTo(tab: string, nodePresent: bool)
    /** A window scroll with the offset, the header (if mounted) and the hero rectangle (if mounted). */
    | Scroll(scrollY: real, header: Option<nat>, hero: Option<ScrollMetrics.Rect>)
    /** A window resize; only the hero-progress listener reacts. */
    | Resize(hero: Option<ScrollMetrics.Rect>)
    /** The debounce timer's callback runs. */
    | TimerFire
    /** One notification of the section observer. */
    | Intersect(entries: seq<Entry>)

  /** The state the page mounts with. */
  const Init: State := State("About", false, false, false, 0.0)

  /** What the coordinator maintains: the active tab is one of the tabs, the
      progress is normalised, and a pending timer only exists while a
      programmatic scroll is in flight. */
  predicate Inv(s: State) {
    && s.activeTab in Tabs
    && 0.0 <= s.heroProgress <= 1.0
    && (s.timerArmed ==> s.programmaticScroll)
  }

  /** `scrollToTab`: without a mounted section nothing happens; otherwise the
      tab becomes active at once, the flag is raised and a pending timer is
      cancelled (the smooth scroll itself is a browser effect). */
  function Navigate(s: State, tab: string, nodePresent: bool): (r: State)
    ensures !(nodePresent && tab in Tabs) ==> r == s
    ensures nodePresent && tab in Tabs ==>
              && r.activeTab == tab && r.programmaticScroll && !r.timerArmed
              && r.showBottomNav == s.showBottomNav && r.heroProgress == s.heroProgress
  {
    if !nodePresent || tab !in Tabs then s
    else s.(activeTab := tab, programmaticScroll := true, timerArmed := false)
  }

  /** The hero-progress listener: no hero, no update. */
  function TrackHero(s: State, hero: Option<ScrollMetrics.Rect>): (r: State)
    ensures hero.None? ==> r == s
    ensures hero.Some? ==> r == s.(heroProgress := ScrollMetrics.Progress(hero.value))
    ensures 0.0 <= s.heroProgress <= 1.0 ==> 0.0 <= r.heroProgress <= 1.0
  {
    match hero
    case None => s
    case Some(rect) => s.(heroProgress := ScrollMetrics.Progress(rect))
  }

  /** All three scroll listeners: the debounce (re)arms the timer only while
      the flag is up, the bottom-nav listener recomputes visibility, and the
      hero listener recomputes progress. A scroll never changes the tab or
      the flag. */
  function OnScroll(s: State, scrollY: real, header: Option<nat>, hero: Option<ScrollMetrics.Rect>): (r: State)
    ensures r.activeTab == s.activeTab && r.programmaticScroll == s.programmaticScroll
    ensures s.programmaticScroll ==> r.timerArmed
    ensures !s.programmaticScroll ==> r.timerArmed == s.timerArmed
    ensures r.showBottomNav <==> scrollY > ScrollMetrics.HeaderHeight(header) as real + ScrollMetrics.NavMargin
    ensures hero.None? ==> r.heroProgress == s.heroProgress
    ensures hero.Some? ==> r.heroProgress == ScrollMetrics.Progress(hero.value)
  {
    var armed := if s.programmaticScroll then true else s.timerArmed;
    var shown := ScrollMetrics.NavVisible(scrollY, ScrollMetrics.HeaderHeight(header));
    TrackHero(s.(timerArmed := armed, showBottomNav := shown), hero)
  }

  /** The debounce timer's callback lowers the flag; a cancelled timer never runs. */
  function OnTimer(s: State): (r: State)
    ensures !s.timerArmed ==> r == s
    ensures s.timerArmed ==> !r.programmaticScroll && !r.timerArmed
    ensures r.activeTab == s.activeTab && r.showBottomNav == s.showBottomNav && r.heroProgress == s.heroProgress
  {
    if s.timerArmed then s.(programmaticScroll := false, timerArmed := false) else s
  }

  /** The section observer's callback: ignored during a programmatic scroll;
      otherwise the chosen entry's id becomes active if it is one of the tabs. */
  function OnIntersect(s: State, es: seq<Entry>): (r: State)
    ensures s.programmaticScroll ==> r == s
    ensures (forall i :: 0 <= i < |es| ==> !es[i].isIntersecting) ==> r == s
    ensures r.programmaticScroll == s.programmaticScroll && r.timerArmed == s.timerArmed
    ensures r.showBottomNav == s.showBottomNav && r.heroProgress == s.heroProgress
    ensures r.activeTab == s.activeTab || r.activeTab in Tabs
    ensures r.activeTab != s.activeTab ==>
              exists i :: 0 <= i < |es| && es[i].isIntersecting && es[i].id == Some(r.activeTab)
                          && forall j :: 0 <= j < |es| && es[j].isIntersecting ==> es[j].ratio <= es[i].ratio
    ensures r.activeTab != s.activeTab ==>
              |Visible(es)| > 0 && Visible(es)[BestIndex(Visible(es))].id == Some(r.activeTab)
    ensures !s.programmaticScroll && |Visible(es)| > 0 ==>
              var id := Visible(es)[BestIndex(Visible(es))].id;
              if id.Some? && id.value in Tabs then r == s.(activeTab := id.value) else r == s
  {
    if s.programmaticScroll then s
    else match Choose(es)
      case None => s
      case Some(best) =>
        ReduceIsLastMax(Visible(es));
        if best.id.Some? && best.id.value in Tabs then s.(activeTab := best.id.value) else s
  }

  /** One event of the event loop. */
  function Step(s: State, e: Event): (r: State)
    ensures Inv(s) ==> Inv(r)
  {
    match e
    case NavigateTo(tab, present) => Navigate(s, tab, present)
    case Scroll(y, header, hero) => OnScroll(s, y, header, hero)
    case Resize(hero) => TrackHero(s, hero)
    case TimerFire => OnTimer(s)
    case Intersect(es) => OnIntersect(s, es)
  }

  /** A run of events from left to right. */
  function Run(s: State, evs: seq<Event>): (r: State)
    ensures Inv(s) ==> Inv(r)
    decreases |evs|
  {
    if |evs| == 0 then s else Run(Step(s, evs[0]), evs[1..])
  }

  /** Every state reachable from the mounted page keeps the invariant. */
  lemma ReachableInv(evs: seq<Event>)
    ensures Inv(Run(Init, evs))
  {
  }

  /** Only the timer lowers the flag. */
  lemma OnlyTimerClearsFlag(s: State, e: Event)
    requires s.programmaticScroll && !Step(s, e).programmaticScroll
    ensures e.TimerFire? && s.timerArmed
  {
  }

  /** While the flag is up and neither a navigation nor a timer expiry
      happens, the active tab stays pinned and the flag stays up, whatever
      scrolls, resizes and observer notifications arrive. In particular,
      after a navigation that triggers no scroll event at all, the flag
      stays up and observer updates stay suppressed. */
  lemma {:induction false} PinnedWhileNavigating(s: State, evs: seq<Event>)
    requires s.programmaticScroll
    requires forall i :: 0 <= i < |evs| ==> !evs[i].NavigateTo? && !evs[i].TimerFire?
    ensures Run(s, evs).activeTab == s.activeTab
    ensures Run(s, evs).programmaticScroll
    decreases |evs|
  {
    if |evs| > 0 {
      var s' := Step(s, evs[0]);
      assert s'.activeTab == s.activeTab && s'.programmaticScroll;
      assert forall i :: 0 <= i < |evs[1..]| ==> evs[1..][i] == evs[i + 1];
      PinnedWhileNavigating(s', evs[1..]);
    }
  }

  /** Any scroll event while the flag is up (not only the click's own smooth
      scroll) arms the timer, so its expiry releases the flag. */
  lemma ScrollThenTimerReleases(s: State, y: real, header: Option<nat>, hero: Option<ScrollMetrics.Rect>)
    requires s.programmaticScroll
    ensures !Run(s, [Scroll(y, header, hero), TimerFire]).programmaticScroll
    ensures Run(s, [Scroll(y, header, hero), TimerFire]).activeTab == s.activeTab
  {
    var evs := [Scroll(y, header, hero), TimerFire];
    var s1 := Step(s, evs[0]);
    var s2 := Step(s1, TimerFire);
    assert s1.timerArmed && s1.activeTab == s.activeTab;
    assert evs[1..] == [TimerFire] && [TimerFire][1..] == [];
    assert Run(s, evs) == Run(s1, [TimerFire]) == Run(s2, []) == s2;
  }

  /** The position of `x` in `xs`, or -1 (`Array.prototype.indexOf`). */
  function IndexOf(xs: seq<string>, x: string): (i: int)
    ensures -1 <= i < |xs|
    ensures i == -1 <==> x !in xs
    ensures 0 <= i ==> xs[i] == x && forall j :: 0 <= j < i ==> xs[j] != x
    decreases |xs|
  {
    if |xs| == 0 then -1
    else if xs[0] == x then 0
    else
      var k := IndexOf(xs[1..], x);
      if k == -1 then -1 else k + 1
  }

  /** The capsule indicator's left edge, in percent of the bar, before the
      fixed 4 px inset. */
  function IndicatorLeft(activeTab: string): real {
    IndexOf(Tabs, activeTab) as real * (100.0 / |Tabs| as real)
  }

  /** The indicator's width, in percent of the bar, before the 4 px inset. */
  function IndicatorWidth(): real {
    100.0 / |Tabs| as real
  }

  /** In every state that keeps the invariant the indicator index is 0..2,
      the indicator lies inside the bar, and exactly one tab is selected. */
  lemma IndicatorInRange(s: State)
    requires Inv(s)
    ensures 0 <= IndexOf(Tabs, s.activeTab) < 3
    ensures Tabs[IndexOf(Tabs, s.activeTab)] == s.activeTab
    ensures 0.0 <= IndicatorLeft(s.activeTab) && IndicatorLeft(s.activeTab) + IndicatorWidth() <= 100.0
    ensures exists i :: 0 <= i < |Tabs| && Tabs[i] == s.activeTab
    ensures forall i, j :: 0 <= i < |Tabs| && 0 <= j < |Tabs| && Tabs[i] == s.activeTab && Tabs[j] == s.activeTab ==> i == j
  {
    var i := IndexOf(Tabs, s.activeTab);
    assert Tabs[i] == s.activeTab;
    TabsDistinct();
    IndicatorArithmetic(i);
  }

  /** The three tab labels are pairwise different. */
  lemma TabsDistinct()
    ensures forall i, j :: 0 <= i < |Tabs| && 0 <= j < |Tabs| && Tabs[i] == Tabs[j] ==> i == j
  {
    assert Tabs[0] != Tabs[1] && Tabs[0] != Tabs[2] && Tabs[1] != Tabs[2];
  }

  /** An index among three tabs places a third-wide indicator inside the bar. */
  lemma IndicatorArithmetic(i: int)
    requires 0 <= i < 3
    ensures 0.0 <= i as real * (100.0 / 3.0)
    ensures i as real * (100.0 / 3.0) + 100.0 / 3.0 <= 100.0
  {
    assert i as real * (100.0 / 3.0) + 100.0 / 3.0 == (i + 1) as real * (100.0 / 3.0);
  }

  /** Scenario: a click on Projects followed at once by a scroll keeps
      Projects active whatever the observer reports; once the timer expires
      the observer drives the tab again. */
  lemma ClickThenScrollScenario(y: real, rect: ScrollMetrics.Rect)
    ensures
      var s1 := Step(Init, NavigateTo("Projects", true));
      var s2 := Step(s1, Scroll(y, Some(0), Some(rect)));
      var s3 := Step(s2, Intersect([Entry(Some("About"), true, 0.9)]));
      var s4 := Step(s3, TimerFire);
      var s5 := Step(s4, Intersect([Entry(Some("About"), true, 0.6), Entry(Some("Projects"), true, 0.4)]));
      && s1.activeTab == "Projects" && s1.programmaticScroll && !s1.timerArmed
      && s2.timerArmed && s3.activeTab == "Projects"
      && !s4.programmaticScroll && s4.activeTab == "Projects"
      && s5.activeTab == "About"
  {
    GreaterRatioWins("About", "Projects");
    var es := [Entry(Some("About"), true, 0.9)];
    assert Visible(es) == es;
  }
}

=== FILE: intersection.dfy ===
/** The choice the section IntersectionObserver callback makes among the
    entries of one notification (src/App.js): keep the intersecting
    entries, then fold them with "keep the left one only if its ratio is
    strictly greater", so that among equal maximal ratios the LAST one wins. */
module Intersection {
  import opened Wrappers

  /** One observer entry: the target's `data-section` attribute (None when
      the attribute is absent), whether it intersects, and its ratio. */
  datatype Entry = Entry(id: Option<string>, isIntersecting: bool, ratio: real)

  /** `entries.filter(e => e.isIntersecting)` */
  function Visible(es: seq<Entry>): (vs: seq<Entry>)
    ensures |vs| <= |es|
  {
    if |es| == 0 then []
    else (if es[0].isIntersecting then [es[0]] else []) + Visible(es[1..])
  }

  /** The filter keeps exactly the intersecting entries. */
  lemma {:induction false} VisibleFacts(es: seq<Entry>)
    ensures forall v :: v in Visible(es) ==> v in es && v.isIntersecting
    ensures forall i :: 0 <= i < |es| && es[i].isIntersecting ==> es[i] in Visible(es)
    ensures |Visible(es)| == 0 <==> forall i :: 0 <= i < |es| ==> !es[i].isIntersecting
    decreases |es|
  {
    if |es| > 0 {
      var rest := es[1..];
      VisibleFacts(rest);
      var head := if es[0].isIntersecting then [es[0]] else [];
      assert Visible(es) == head + Visible(rest);
      forall i | 0 < i < |es| && es[i].isIntersecting
        ensures es[i] in Visible(es)
      {
        assert es[i] == rest[i - 1];
      }
      if |Visible(es)| == 0 {
        forall i | 0 < i < |es|
          ensures !es[i].isIntersecting
        {
          assert es[i] == rest[i - 1];
        }
      }
    }
  }

  /** Filtering distributes over concatenation: together with the one-entry
      cases this pins `Visible` down as the order-preserving filter. */
  lemma {:induction false} VisibleAppend(a: seq<Entry>, b: seq<Entry>)
    ensures Visible(a + b) == Visible(a) + Visible(b)
    decreases |a|
  {
    if |a| == 0 {
      assert a + b == b;
    } else {
      var ab := a + b;
      var head := if a[0].isIntersecting then [a[0]] else [];
      assert ab[0] == a[0];
      assert ab[1..] == a[1..] + b;
      VisibleAppend(a[1..], b);
      calc {
        Visible(ab);
        head + Visible(ab[1..]);
        head + Visible(a[1..] + b);
        head + (Visible(a[1..]) + Visible(b));
        (head + Visible(a[1..])) + Visible(b);
        Visible(a) + Visible(b);
      }
    }
  }

  /** The reducer `(a, b) => a.intersectionRatio > b.intersectionRatio ? a : b`
      folded from `acc` over `rest`, as `Array.prototype.reduce` does. */
  function Reduce(acc: Entry, rest: seq<Entry>): (best: Entry)
    ensures best == acc || best in rest
    ensures acc.ratio <= best.ratio
    decreases |rest|
  {
    if |rest| == 0 then acc
    else Reduce(if acc.ratio > rest[0].ratio then acc else rest[0], rest[1..])
  }

  /** Position `k` holds a maximal ratio among the first `n` entries, and
      every later one of those `n` has a strictly smaller ratio: k is the
      last position of the maximum. */
  predicate LastMaxUpTo(vs: seq<Entry>, n: int, k: int) {
    && 0 <= k < n <= |vs|
    && (forall j :: 0 <= j < n ==> vs[j].ratio <= vs[k].ratio)
    && (forall j :: k < j < n ==> vs[j].ratio < vs[k].ratio)
  }

  /** The left-to-right scan behind the fold, tracking the position of the
      current best entry `k` while `i` entries have been seen. */
  function BestFrom(vs: seq<Entry>, k: nat, i: nat): (b: nat)
    requires k < |vs| && i <= |vs|
    ensures b < |vs|
    ensures b == k || i <= b
    decreases |vs| - i
  {
    if i == |vs| then k
    else BestFrom(vs, if vs[k].ratio > vs[i].ratio then k else i, i + 1)
  }

  /** The position of the entry the callback selects: the last position
      holding the maximal ratio; no other position has that property. */
  function BestIndex(vs: seq<Entry>): (b: nat)
    requires |vs| > 0
    ensures LastMaxUpTo(vs, |vs|, b)
    ensures forall k :: LastMaxUpTo(vs, |vs|, k) ==> k == b
  {
    ScanIsLastMax(vs, 0, 1);
    BestFrom(vs, 0, 1)
  }

  /** One step of the scan keeps the last-maximum property. */
  lemma ScanStep(vs: seq<Entry>, k: nat, i: nat)
    requires LastMaxUpTo(vs, i, k) && i < |vs|
    ensures LastMaxUpTo(vs, i + 1, if vs[k].ratio > vs[i].ratio then k else i)
  {
  }

  /** Started from a last maximum of a prefix, the scan ends on the last
      maximum of the whole list. */
  lemma {:induction false} ScanIsLastMax(vs: seq<Entry>, k: nat, i: nat)
    requires LastMaxUpTo(vs, i, k)
    ensures LastMaxUpTo(vs, |vs|, BestFrom(vs, k, i))
    decreases |vs| - i
  {
    if i < |vs| {
      ScanStep(vs, k, i);
      ScanIsLastMax(vs, if vs[k].ratio > vs[i].ratio then k else i, i + 1);
    }
  }

  /** The fold from position `k` over the suffix starting at `i` lands on
      the entry the scan picks. */
  lemma {:induction false} ReduceFollowsScan(vs: seq<Entry>, k: nat, i: nat)
    requires k < |vs| && i <= |vs|
    ensures Reduce(vs[k], vs[i..]) == vs[BestFrom(vs, k, i)]
    decreases |vs| - i
  {
    if i < |vs| {
      var rest := vs[i..];
      assert rest[0] == vs[i];
      assert rest[1..] == vs[i + 1..];
      ReduceFollowsScan(vs, if vs[k].ratio > vs[i].ratio then k else i, i + 1);
    }
  }

  /** The literal `reduce` over a non-empty list returns the entry at the last
      position of the maximal ratio: ties go to the later entry. */
  lemma ReduceIsLastMax(vs: seq<Entry>)
    requires |vs| > 0
    ensures Reduce(vs[0], vs[1..]) == vs[BestIndex(vs)]
  {
    ReduceFollowsScan(vs, 0, 1);
  }

  /** The entry the callback selects from one notification, or None when no
      entry intersects. */
  function Choose(es: seq<Entry>): (c: Option<Entry>)
    ensures c.None? <==> forall i :: 0 <= i < |es| ==> !es[i].isIntersecting
    ensures c.Some? ==> c.value in es && c.value.isIntersecting
    ensures c.Some? ==> forall i :: 0 <= i < |es| && es[i].isIntersecting ==> es[i].ratio <= c.value.ratio
    ensures c.Some? ==> |Visible(es)| > 0 && c.value == Visible(es)[BestIndex(Visible(es))]
  {
    var vs := Visible(es);
    VisibleFacts(es);
    if |vs| == 0 then None
    else
      ReduceIsLastMax(vs);
      Some(Reduce(vs[0], vs[1..]))
  }

  /** Scenario: of two intersecting sections at 0.6 and 0.4, the 0.6 one is chosen. */
  lemma GreaterRatioWins(a: string, b: string)
    ensures Choose([Entry(Some(a), true, 0.6), Entry(Some(b), true, 0.4)]) == Some(Entry(Some(a), true, 0.6))
  {
    var es := [Entry(Some(a), true, 0.6), Entry(Some(b), true, 0.4)];
    assert Visible(es[1..][1..]) == [];
    assert Visible(es[1..]) == [es[1]];
  }

  /** Equal ratios: the later entry wins, whatever its id. */
  lemma TieGoesToLater(a: string, b: string, r: real)
    ensures Choose([Entry(Some(a), true, r), Entry(Some(b), true, r)]) == Some(Entry(Some(b), true, r))
  {
    var es := [Entry(Some(a), true, r), Entry(Some(b), true, r)];
    assert Visible(es[1..][1..]) == [];
    assert Visible(es[1..]) == [es[1]];
  }
}

=== FILE: parity.dfy ===
/** The even/odd scheduling of `play` in src/components/Shuffle.jsx: strips
    at odd positions animate first, strips at even positions start once 70%
    of the odd group's total time has passed. */
module Parity {

  /** `strips.filter((_, i) => i % 2 === 1)`, walked two positions at a time. */
  function Odds<T>(s: seq<T>): (o: seq<T>)
    ensures |o| == |s| / 2
    ensures forall j :: 0 <= j < |o| ==> o[j] == s[2 * j + 1]
    decreases |s|
  {
    if |s| < 2 then [] else [s[1]] + Odds(s[2..])
  }

  /** `strips.filter((_, i) => i % 2 === 0)`, walked two positions at a time. */
  function Evens<T>(s: seq<T>): (e: seq<T>)
    ensures |e| == (|s| + 1) / 2
    ensures forall j :: 0 <= j < |e| ==> e[j] == s[2 * j]
    decreases |s|
  {
    if |s| == 0 then [] else if |s| == 1 then [s[0]] else [s[0]] + Evens(s[2..])
  }

  /** Merges an even list and an odd list back by alternating them, starting with the even one. */
  function Interleave<T>(e: seq<T>, o: seq<T>): (r: seq<T>)
    requires |o| <= |e| <= |o| + 1
    ensures |r| == |e| + |o|
    decreases |e|
  {
    if |e| == 0 then []
    else if |o| == 0 then [e[0]]
    else [e[0], o[0]] + Interleave(e[1..], o[1..])
  }

  /** The two groups partition the strips by parity: interleaving them again
      gives back the original list, so every strip is in exactly one group
      and both groups keep the original relative order. */
  lemma {:induction false} InterleaveSplit<T>(s: seq<T>)
    ensures Interleave(Evens(s), Odds(s)) == s
    decreases |s|
  {
    if |s| >= 2 {
      InterleaveSplit(s[2..]);
      assert Evens(s)[1..] == Evens(s[2..]);
      assert Odds(s)[1..] == Odds(s[2..]);
      assert s == [s[0], s[1]] + s[2..];
    } else if |s| == 1 {
      assert Evens(s) == [s[0]];
    }
  }

  /** The fraction of the odd group's time after which the even group starts. */
  const EvenDelayFactor: real := 0.7

  /** When the even group starts (seconds), given the tween duration, the
      per-strip stagger and the number of odd strips. */
  function EvenStart(duration: real, stagger: real, oddCount: nat): (t: real)
    ensures oddCount == 0 ==> t == 0.0
    ensures duration > 0.0 && stagger >= 0.0 ==> (t == 0.0 <==> oddCount == 0)
    ensures oddCount > 0 && duration >= 0.0 && stagger >= 0.0 ==>
              0.0 <= t <= duration + (oddCount - 1) as real * stagger
    ensures oddCount > 0 ==> t == EvenDelayFactor * (duration + (oddCount - 1) as real * stagger)
  {
    var extra := if oddCount - 1 > 0 then oddCount - 1 else 0;
    var oddTotal := duration + extra as real * stagger;
    if oddCount > 0 then oddTotal * EvenDelayFactor else 0.0
  }

  /** The hero name's nine strips with duration 0.35 s and stagger 0.03 s:
      four odd strips, five even strips, and the even group starts at 0.308 s. */
  lemma HeroNameSchedule<T>(s: seq<T>)
    requires |s| == 9
    ensures |Odds(s)| == 4 && |Evens(s)| == 5
    ensures EvenStart(0.35, 0.03, |Odds(s)|) == 0.308
  {
  }
}

=== FILE: root_margin.dfy ===
/** The `rootMargin` handling of the Shuffle effect
    (src/components/Shuffle.jsx): the prop is matched against the pattern
    `^(-?\d+(?:\.\d+)?)(px|em|rem|%)?$`; a match gives a signed decimal and
    a unit (px when omitted), a mismatch gives 0 px. The value becomes the
    signed suffix of the ScrollTrigger start position. Decimal-to-binary
    rounding and number-to-text formatting are not modelled: values are
    exact reals, and text formatting of a number is the parameter `fmt`. */
module RootMargin {
  import opened Wrappers

  datatype Unit = Px | Em | Rem | Percent

  /** A matched margin: the optional minus sign, the integer digits, the
      optional fraction digits, and the optional unit, as written. */
  datatype Margin = Margin(negative: bool, whole: string, frac: Option<string>, unit: Option<Unit>)

  predicate IsDigit(c: char) { '0' <= c <= '9' }

  predicate AllDigits(s: string) { forall i :: 0 <= i < |s| ==> IsDigit(s[i]) }

  /** The margins the pattern can match: non-empty digit runs. */
  predicate WellFormed(m: Margin) {
    && |m.whole| > 0 && AllDigits(m.whole)
    && (m.frac.Some? ==> |m.frac.value| > 0 && AllDigits(m.frac.value))
  }

  function UnitText(u: Unit): string {
    match u
    case Px => "px"
    case Em => "em"
    case Rem => "rem"
    case Percent => "%"
  }

  /** The text of an optional fraction group, dot included. */
  function FracText(frac: Option<string>): string {
    match frac
    case Some(f) => "." + f
    case None => ""
  }

  /** The text of an optional unit group. */
  function UnitSuffix(u: Option<Unit>): string {
    match u
    case Some(v) => UnitText(v)
    case None => ""
  }

  /** How a margin is written. The strings the pattern matches are exactly
      the texts of well-formed margins. */
  function Text(m: Margin): string {
    (if m.negative then "-" else "") + (m.whole + (FracText(m.frac) + UnitSuffix(m.unit)))
  }

  /** The length of the run of digits `s` starts with (`\d+` is greedy). */
  function DigitRun(s: string): (n: nat)
    ensures n <= |s|
    ensures forall i :: 0 <= i < n ==> IsDigit(s[i])
    ensures n < |s| ==> !IsDigit(s[n])
    decreases |s|
  {
    if |s| == 0 || !IsDigit(s[0]) then 0 else 1 + DigitRun(s[1..])
  }

  /** The unit group and the end of input: Some(None) for nothing left,
      Some(Some(u)) for exactly one unit, None otherwise. */
  function ParseUnit(s: string): (r: Option<Option<Unit>>)
    ensures r.Some? ==> UnitSuffix(r.value) == s
  {
    if s == "" then Some(None)
    else if s == "px" then Some(Some(Px))
    else if s == "em" then Some(Some(Em))
    else if s == "rem" then Some(Some(Rem))
    else if s == "%" then Some(Some(Percent))
    else None
  }

  /** Splitting a string after its first n characters. */
  lemma SplitAt(s: string, n: nat)
    requires n <= |s|
    ensures s == s[..n] + s[n..]
  {
  }

  /** Matches `\.\d+` followed by the unit group against `tail` (which
      starts with the dot): the fraction digits and the unit. */
  function ParseFraction(tail: string): (r: Option<(string, Option<Unit>)>)
    requires |tail| > 0 && tail[0] == '.'
    ensures r.Some? ==> |r.value.0| > 0 && AllDigits(r.value.0)
    ensures r.Some? ==> FracText(Some(r.value.0)) + UnitSuffix(r.value.1) == tail
  {
    var digits := tail[1..];
    var m := DigitRun(digits);
    if m == 0 then None
    else
      match ParseUnit(digits[m..])
      case None => None
      case Some(u) =>
        SplitAt(digits, m);
        SplitAt(tail, 1);
        assert tail[..1] == ".";
        Some((digits[..m], u))
  }

  /** Matches the pattern without its optional sign against `body`. */
  function ParseUnsigned(body: string): (r: Option<Margin>)
    ensures r.Some? ==> WellFormed(r.value) && !r.value.negative
    ensures r.Some? ==> r.value.whole + (FracText(r.value.frac) + UnitSuffix(r.value.unit)) == body
  {
    var n := DigitRun(body);
    if n == 0 then None
    else
      var tail := body[n..];
      SplitAt(body, n);
      if |tail| > 0 && tail[0] == '.' then
        match ParseFraction(tail)
        case None => None
        case Some(fu) => Some(Margin(false, body[..n], Some(fu.0), fu.1))
      else
        match ParseUnit(tail)
        case None => None
        case Some(u) => Some(Margin(false, body[..n], None, u))
  }

  /** Matches the pattern against `s`: an optional leading minus, then the
      unsigned number and unit. */
  function Parse(s: string): (r: Option<Margin>)
    ensures r.Some? ==> WellFormed(r.value) && Text(r.value) == s
  {
    if |s| > 0 && s[0] == '-' then
      match ParseUnsigned(s[1..])
      case None => None
      case Some(m) =>
        SplitAt(s, 1);
        assert s[..1] == "-";
        Some(m.(negative := true))
    else ParseUnsigned(s)
  }

  /** A digit run followed by a non-digit (or nothing) is read in full. */
  lemma {:induction false} DigitRunOfDigits(d: string, t: string)
    requires AllDigits(d)
    requires |t| == 0 || !IsDigit(t[0])
    ensures DigitRun(d + t) == |d|
    decreases |d|
  {
    if |d| > 0 {
      assert (d + t)[1..] == d[1..] + t;
      DigitRunOfDigits(d[1..], t);
    } else {
      assert d + t == t;
    }
  }

  lemma ParseUnitText(u: Option<Unit>)
    ensures ParseUnit(UnitSuffix(u)) == Some(u)
  {
  }

  /** A fraction group followed by a unit group is read back. */
  lemma ParseFractionText(f: string, u: Option<Unit>)
    requires |f| > 0 && AllDigits(f)
    ensures |FracText(Some(f)) + UnitSuffix(u)| > 0
    ensures (FracText(Some(f)) + UnitSuffix(u))[0] == '.'
    ensures ParseFraction(FracText(Some(f)) + UnitSuffix(u)) == Some((f, u))
  {
    var tail := FracText(Some(f)) + UnitSuffix(u);
    assert tail[1..] == f + UnitSuffix(u);
    ParseUnitText(u);
    DigitRunOfDigits(f, UnitSuffix(u));
    assert (f + UnitSuffix(u))[..|f|] == f;
    assert (f + UnitSuffix(u))[|f|..] == UnitSuffix(u);
  }

  /** The unsigned text of a well-formed margin is read back as that margin. */
  lemma ParseUnsignedText(m: Margin)
    requires WellFormed(m) && !m.negative
    ensures ParseUnsigned(m.whole + (FracText(m.frac) + UnitSuffix(m.unit))) == Some(m)
  {
    var rest := FracText(m.frac) + UnitSuffix(m.unit);
    var body := m.whole + rest;
    ParseUnitText(m.unit);
    if m.frac.Some? {
      ParseFractionText(m.frac.value, m.unit);
    } else {
      assert rest == UnitSuffix(m.unit);
    }
    DigitRunOfDigits(m.whole, rest);
    assert body[..|m.whole|] == m.whole;
    assert body[|m.whole|..] == rest;
  }

  /** Every well-formed margin's text is accepted and read back as that margin. */
  lemma ParseText(m: Margin)
    requires WellFormed(m)
    ensures Parse(Text(m)) == Some(m)
  {
    var u := m.(negative := false);
    var body := m.whole + (FracText(m.frac) + UnitSuffix(m.unit));
    ParseUnsignedText(u);
    assert body[0] == m.whole[0];
    if m.negative {
      assert Text(m) == "-" + body;
      assert Text(m)[1..] == body;
    } else {
      assert Text(m) == body;
      assert u == m;
    }
  }

  /** The parse accepts exactly the strings the pattern matches. */
  lemma ParseAcceptsExactlyPattern(s: string)
    ensures Parse(s).Some? <==> exists m :: WellFormed(m) && Text(m) == s
  {
    if exists m :: WellFormed(m) && Text(m) == s {
      var m :| WellFormed(m) && Text(m) == s;
      ParseText(m);
    }
  }

  /** The value of a digit run. */
  function DigitsValue(s: string): nat
    requires AllDigits(s)
    decreases |s|
  {
    if |s| == 0 then 0
    else 10 * DigitsValue(s[..|s| - 1]) + (s[|s| - 1] as int - '0' as int)
  }

  function Pow10(n: nat): (p: nat)
    ensures p >= 1
  {
    if n == 0 then 1 else 10 * Pow10(n - 1)
  }

  /** Every character of `s` is the digit zero. */
  predicate AllZeros(s: string) { forall i :: 0 <= i < |s| ==> s[i] == '0' }

  /** A digit run is worth 0 exactly when every digit is 0, and it is
      worth less than 10 to the power of its length. */
  lemma {:induction false} DigitsValueFacts(s: string)
    requires AllDigits(s)
    ensures DigitsValue(s) == 0 <==> AllZeros(s)
    ensures DigitsValue(s) < Pow10(|s|)
    decreases |s|
  {
    if |s| > 0 {
      var n := |s| - 1;
      var p := s[..n];
      assert forall i :: 0 <= i < |p| ==> p[i] == s[i];
      DigitsValueFacts(p);
      assert AllZeros(s) <==> AllZeros(p) && s[n] == '0' by {
        if AllZeros(p) && s[n] == '0' {
          forall i | 0 <= i < |s| ensures s[i] == '0' {
            if i < n { assert s[i] == p[i]; }
          }
        }
      }
    }
  }

  /** The value of the optional fraction group: its digits over the power
      of ten of their count. */
  function FracValue(frac: Option<string>): (f: real)
    requires frac.Some? ==> AllDigits(frac.value)
    ensures 0.0 <= f < 1.0
    ensures f == 0.0 <==> (frac.Some? ==> AllZeros(frac.value))
  {
    match frac
    case None => 0.0
    case Some(d) =>
      DigitsValueFacts(d);
      ProperFraction(DigitsValue(d), Pow10(|d|));
      DigitsValue(d) as real / Pow10(|d|) as real
  }

  /** A numerator below its positive denominator gives a fraction in [0, 1),
      zero only for a zero numerator. */
  lemma ProperFraction(num: nat, den: nat)
    requires num < den
    ensures 0.0 <= num as real / den as real < 1.0
    ensures num as real / den as real == 0.0 <==> num == 0
  {
    var q := num as real / den as real;
    assert q * den as real == num as real;
  }

  /** `parseFloat` of the numeric group, as an exact decimal. */
  function Value(m: Margin): (v: real)
    requires WellFormed(m)
    ensures m.negative ==> v <= 0.0
    ensures !m.negative ==> v >= 0.0
    ensures var whole := DigitsValue(m.whole) as real;
            (if m.negative then -v else v) - whole >= 0.0
            && (if m.negative then -v else v) - whole < 1.0
  {
    var magnitude := DigitsValue(m.whole) as real + FracValue(m.frac);
    if m.negative then -magnitude else magnitude
  }

  /** The effective margin: value and unit. */
  datatype Offset = Offset(value: real, unit: Unit)

  /** The effective margin of the prop: 0 px when it does not match, the
      parsed value otherwise, with px standing in for an omitted unit. */
  function Resolve(rootMargin: string): (o: Offset)
    ensures Parse(rootMargin).None? ==> o == Offset(0.0, Px)
    ensures Parse(rootMargin).Some? ==>
              o.unit == Parse(rootMargin).value.unit.GetOr(Px)
              && (Parse(rootMargin).value.negative ==> o.value <= 0.0)
              && (!Parse(rootMargin).value.negative ==> o.value >= 0.0)
    ensures Parse(rootMargin).Some? ==> o.value == Value(Parse(rootMargin).value)
  {
    match Parse(rootMargin)
    case None => Offset(0.0, Px)
    case Some(m) => Offset(Value(m), m.unit.GetOr(Px))
  }

  /** The signed shift appended to the trigger's start position. */
  datatype Shift = NoShift | Minus(magnitude: real, unit: Unit) | Plus(magnitude: real, unit: Unit)

  /** The shift for an effective margin: none for 0, otherwise `-=` or `+=`
      with the absolute value and the unit. */
  function SignShift(o: Offset): (sh: Shift)
    ensures sh.NoShift? <==> o.value == 0.0
    ensures sh.Minus? <==> o.value < 0.0
    ensures sh.Plus? <==> o.value > 0.0
    ensures !sh.NoShift? ==> sh.magnitude > 0.0 && sh.unit == o.unit
    ensures sh.Minus? ==> sh.magnitude == -o.value
    ensures sh.Plus? ==> sh.magnitude == o.value
  {
    if o.value == 0.0 then NoShift
    else if o.value < 0.0 then Minus(-o.value, o.unit)
    else Plus(o.value, o.unit)
  }

  /** The shift as text, with `fmt` standing for the number-to-text conversion. */
  function ShiftText(sh: Shift, fmt: real -> string): (t: string)
    ensures t == "" <==> sh.NoShift?
    ensures sh.Minus? ==> |t| >= 2 && t[..2] == "-="
    ensures sh.Plus? ==> |t| >= 2 && t[..2] == "+="
    ensures !sh.NoShift? ==> t[2..] == fmt(sh.magnitude) + UnitText(sh.unit)
  {
    match sh
    case NoShift => ""
    case Minus(v, u) => "-=" + fmt(v) + UnitText(u)
    case Plus(v, u) => "+=" + fmt(v) + UnitText(u)
  }

  /** The shift text of an effective margin: nothing for 0, otherwise the
      sign, the absolute value as `fmt` writes it, and the unit. */
  lemma ShiftRendering(o: Offset, fmt: real -> string)
    ensures o.value == 0.0 ==> ShiftText(SignShift(o), fmt) == ""
    ensures o.value < 0.0 ==> ShiftText(SignShift(o), fmt) == "-=" + fmt(-o.value) + UnitText(o.unit)
    ensures o.value > 0.0 ==> ShiftText(SignShift(o), fmt) == "+=" + fmt(o.value) + UnitText(o.unit)
  {
  }

  /** A prefix of a prefix of `t` is a prefix of `t`. */
  lemma PrefixOfPrefix(t: string, head: string, n: nat)
    requires n <= |head| <= |t| && t[..|head|] == head
    ensures t[..n] == head[..n]
  {
    assert t[..n] == t[..|head|][..n];
  }

  /** Appending a three-part text is appending its parts in turn. */
  lemma Append3(h: string, a: string, b: string, c: string)
    ensures h + (a + b + c) == h + a + b + c
  {
  }

  /** The percentage part of the start position: `top <pct>%`. */
  function StartHead(threshold: real, fmt: real -> string): (h: string)
    ensures |h| >= 5 && h[..4] == "top " && h[|h| - 1] == '%'
  {
    var h := "top " + fmt((1.0 - threshold) * 100.0) + "%";
    assert h[..4] == "top ";
    h
  }

  /** A start position made of `head` and the shift of an effective margin:
      the head alone for 0, otherwise the head, the sign, the absolute value
      as `fmt` writes it, and the unit. */
  function ShiftedStart(head: string, o: Offset, fmt: real -> string): (t: string)
    ensures |head| <= |t| && t[..|head|] == head
    ensures t[|head|..] == ShiftText(SignShift(o), fmt)
    ensures var sh := SignShift(o);
            && (sh.NoShift? ==> t == head)
            && (sh.Minus? ==> t == head + "-=" + fmt(sh.magnitude) + UnitText(sh.unit))
            && (sh.Plus? ==> t == head + "+=" + fmt(sh.magnitude) + UnitText(sh.unit))
  {
    var sh := SignShift(o);
    if sh.NoShift? then head
    else
      var sign := if sh.Minus? then "-=" else "+=";
      assert ShiftText(sh, fmt) == sign + fmt(sh.magnitude) + UnitText(sh.unit);
      Append3(head, sign, fmt(sh.magnitude), UnitText(sh.unit));
      head + ShiftText(sh, fmt)
  }

  /** The ScrollTrigger start position: `top <(1 - threshold)·100>%<shift>`. */
  function StartText(threshold: real, rootMargin: string, fmt: real -> string): (t: string)
    ensures |t| >= 5 && t[..4] == "top "
    ensures var head := StartHead(threshold, fmt);
            |head| <= |t| && t[..|head|] == head
            && t[|head|..] == ShiftText(SignShift(Resolve(rootMargin)), fmt)
    ensures var head := StartHead(threshold, fmt);
            var sh := SignShift(Resolve(rootMargin));
            && (sh.NoShift? ==> t == head)
            && (sh.Minus? ==> t == head + "-=" + fmt(sh.magnitude) + UnitText(sh.unit))
            && (sh.Plus? ==> t == head + "+=" + fmt(sh.magnitude) + UnitText(sh.unit))
  {
    var head := StartHead(threshold, fmt);
    var t := ShiftedStart(head, Resolve(rootMargin), fmt);
    PrefixOfPrefix(t, head, 4);
    t
  }

  /** Reading digits after a prefix shifts the prefix's value by one decimal
      place per digit: the positional value of a concatenation. */
  lemma {:induction false} DigitsAppend(a: string, b: string)
    requires AllDigits(a) && AllDigits(b)
    ensures AllDigits(a + b)
    ensures DigitsValue(a + b) == DigitsValue(a) * Pow10(|b|) + DigitsValue(b)
    decreases |b|
  {
    if |b| == 0 {
      assert a + b == a;
    } else {
      var n := |b| - 1;
      var b' := b[..n];
      assert forall i :: 0 <= i < |b'| ==> b'[i] == b[i];
      DigitsAppend(a, b');
      var ab := a + b;
      assert ab[..|ab| - 1] == a + b';
      assert ab[|ab| - 1] == b[n];
      var d := b[n] as int - '0' as int;
      assert DigitsValue(ab) == 10 * DigitsValue(a + b') + d;
      assert DigitsValue(b) == 10 * DigitsValue(b') + d;
      assert Pow10(|b|) == 10 * Pow10(n);
      ShiftDecimal(DigitsValue(a), Pow10(n), DigitsValue(b'), d);
    }
  }

  /** One more digit: 10·(A·P + B) + d = A·(10·P) + (10·B + d). */
  lemma ShiftDecimal(A: int, P: int, B: int, d: int)
    ensures 10 * (A * P + B) + d == A * (10 * P) + (10 * B + d)
  {
  }

  /** `parseFloat` reads the decimal exactly: the magnitude is the integer
      written by the whole and fraction digits side by side, divided by ten
      to the number of fraction digits (so `1.5` is exactly 15/10). */
  lemma ValueShift(m: Margin)
    requires WellFormed(m)
    ensures m.frac.None? ==> (if m.negative then -Value(m) else Value(m)) == DigitsValue(m.whole) as real
    ensures m.frac.Some? ==>
              && AllDigits(m.whole + m.frac.value)
              && (if m.negative then -Value(m) else Value(m))
                 == DigitsValue(m.whole + m.frac.value) as real / Pow10(|m.frac.value|) as real
  {
    Magnitude(m);
    if m.frac.Some? {
      DecimalScaled(m.whole, m.frac.value);
    }
  }

  /** Whole digits `w` followed by fraction digits `f` are worth the integer
      `w ++ f` over ten to the number of fraction digits. */
  lemma DecimalScaled(w: string, f: string)
    requires AllDigits(w) && AllDigits(f)
    ensures AllDigits(w + f)
    ensures DigitsValue(w) as real + FracValue(Some(f)) == DigitsValue(w + f) as real / Pow10(|f|) as real
  {
    DigitsAppend(w, f);
    assert FracValue(Some(f)) == DigitsValue(f) as real / Pow10(|f|) as real;
    OverSum(DigitsValue(w), DigitsValue(f), Pow10(|f|));
  }

  /** W + D/P = (W·P + D)/P for positive P. */
  lemma OverSum(W: nat, D: nat, P: nat)
    requires P > 0
    ensures W as real + D as real / P as real == (W * P + D) as real / P as real
  {
    assert (W * P) as real == W as real * P as real;
  }

  /** The magnitude of a margin is its whole part plus its fraction part. */
  lemma Magnitude(m: Margin)
    requires WellFormed(m)
    ensures (if m.negative then -Value(m) else Value(m)) == DigitsValue(m.whole) as real + FracValue(m.frac)
  {
  }

  /** Scenario: `1.5em` is worth exactly 1.5. */
  lemma OneAndAHalf()
    ensures Value(Margin(false, "1", Some("5"), Some(Em))) == 1.5
  {
    var m := Margin(false, "1", Some("5"), Some(Em));
    ValueShift(m);
    assert "1"[..0] == "" && "15"[..1] == "1";
    assert DigitsValue("1" + "5") == 15;
  }

  /** A matched margin is worth zero exactly when all of its digits, whole
      and fractional, are zero; so only such a margin (`0`, `-0`, `0.00px`, ...)
      leaves the start position unshifted. */
  lemma ZeroIffZeroDigits(m: Margin)
    requires WellFormed(m)
    ensures Value(m) == 0.0 <==> AllZeros(m.whole) && (m.frac.Some? ==> AllZeros(m.frac.value))
    ensures SignShift(Offset(Value(m), Px)).NoShift? <==>
              AllZeros(m.whole) && (m.frac.Some? ==> AllZeros(m.frac.value))
  {
    DigitsValueFacts(m.whole);
  }

  /** A negative zero has no shift. */
  lemma NegativeZeroHasNoShift()
    ensures Parse("-0") == Some(Margin(true, "0", None, None))
    ensures Resolve("-0") == Offset(0.0, Px)
    ensures SignShift(Resolve("-0")) == NoShift
  {
    var m := Margin(true, "0", None, None);
    assert Text(m) == "-0" by {
      assert FracText(m.frac) + UnitSuffix(m.unit) == "";
      assert "0" + "" == "0";
    }
    ParseText(m);
    assert DigitsValue("0") == 0 by {
      assert "0"[..0] == "";
    }
  }

  /** The default prop `-100px` is accepted as written. */
  lemma DefaultMarginParse()
    ensures Parse("-100px") == Some(Margin(true, "100", None, Some(Px)))
  {
    var m := Margin(true, "100", None, Some(Px));
    assert Text(m) == "-100px" by {
      assert FracText(m.frac) + UnitSuffix(m.unit) == "px";
      assert "100" + "px" == "100px";
      assert "-" + "100px" == "-100px";
    }
    ParseText(m);
  }

  lemma HundredValue()
    ensures DigitsValue("100") == 100
  {
    assert "100"[..2] == "10";
    assert "10"[..1] == "1";
    assert "1"[..0] == "";
  }

  /** The default prop `-100px` shifts the start by `-=100px`. */
  lemma DefaultMargin()
    ensures Resolve("-100px") == Offset(-100.0, Px)
    ensures SignShift(Resolve("-100px")) == Minus(100.0, Px)
  {
    var m := Margin(true, "100", None, Some(Px));
    DefaultMarginParse();
    HundredValue();
    assert FracValue(m.frac) == 0.0;
    assert Value(m) == -100.0;
  }

  /** A unit outside px, em, rem and % is rejected and reads as 0 px. */
  lemma UnknownUnitRejected()
    ensures Resolve("10vh") == Offset(0.0, Px)
  {
    var s := "10vh";
    DigitRunOfDigits("10", "vh");
    assert "10" + "vh" == s;
    assert DigitRun(s) == 2;
    assert s[2..] == "vh";
    assert ParseUnit("vh").None?;
    assert ParseUnsigned(s).None?;
    assert Parse(s).None?;
  }
}

=== FILE: scroll_metrics.dfy ===
/** The measurement-driven parts of the page root (src/App.js): when the
    floating bottom navigation shows, how far the hero has been scrolled
    through, how the hero name is styled from that progress, and where a
    navigation click scrolls to. Every browser measurement is an input. */
module ScrollMetrics {
  import opened Wrappers

  /** Extra distance past the header before the bottom navigation shows. */
  const NavMargin: real := 50.0
  /** Gap left between the header and a section a navigation click scrolls to. */
  const SectionGap: real := 12.0
  /** Fraction of the hero height over which the name fades out. */
  const FadeFactor: real := 0.8
  /** How far (px) the hero name rises at full progress. */
  const RisePx: real := 24.0
  /** How much the hero name shrinks at full progress. */
  const ShrinkBy: real := 0.05

  function Max(a: real, b: real): real { if a >= b then a else b }
  function Min(a: real, b: real): real { if a <= b then a else b }

  /** The hero's bounding rectangle as `getBoundingClientRect` reports it
      (only the fields the computation reads). */
  datatype Rect = Rect(top: real, height: real)

  /** `headerRef.current?.offsetHeight || 0`: an unmounted header reads as 0. */
  function HeaderHeight(header: Option<nat>): (h: nat)
    ensures header.None? ==> h == 0
    ensures header.Some? ==> h == header.value
  {
    header.GetOr(0)
  }

  /** Whether the floating bottom navigation is shown at vertical offset
      `scrollY` (the strict comparison of the bottom-nav scroll listener). */
  predicate NavVisible(scrollY: real, headerHeight: nat) {
    scrollY > headerHeight as real + NavMargin
  }

  /** The threshold is strict: exactly at header height + margin the bar is
      hidden, any further down it is shown, and it never hides again while
      scrolling further down. */
  lemma NavThreshold(headerHeight: nat, y: real, y': real)
    ensures !NavVisible(headerHeight as real + NavMargin, headerHeight)
    ensures y > headerHeight as real + NavMargin <==> NavVisible(y, headerHeight)
    ensures NavVisible(y, headerHeight) && y <= y' ==> NavVisible(y', headerHeight)
  {
  }

  /** The hero progress of the name-fade listener: the scrolled-past
      distance `-rect.top`, clamped to [0, h] and scaled by 1/(0.8 h),
      clamped to [0, 1], where h is the hero height but at least 1. */
  function Progress(rect: Rect): (p: real)
    ensures 0.0 <= p <= 1.0
    ensures rect.top >= 0.0 ==> p == 0.0
    ensures -rect.top >= FadeFactor * Max(rect.height, 1.0) ==> p == 1.0
    ensures 0.0 <= -rect.top <= FadeFactor * Max(rect.height, 1.0) ==>
              p * (FadeFactor * Max(rect.height, 1.0)) == -rect.top
  {
    var h := Max(rect.height, 1.0);
    var scrolled := Min(Max(-rect.top, 0.0), h);
    RampFacts(scrolled, h * FadeFactor);
    Min(Max(scrolled / (h * FadeFactor), 0.0), 1.0)
  }

  /** The ramp `s / d` for a non-negative distance and a positive span. */
  lemma RampFacts(s: real, d: real)
    requires s >= 0.0 && d > 0.0
    ensures s / d >= 0.0
    ensures s >= d ==> s / d >= 1.0
    ensures s <= d ==> s / d <= 1.0
    ensures (s / d) * d == s
  {
    if s >= d {
      DivMonotone(d, s, d);
    } else {
      DivMonotone(s, d, d);
    }
    DivMonotone(0.0, s, d);
  }

  /** Dividing by a positive number keeps order. */
  lemma DivMonotone(a: real, b: real, c: real)
    requires a <= b && c > 0.0
    ensures a / c <= b / c
  {
    assert b / c - a / c == (b - a) / c;
  }

  /** Progress never decreases as the hero moves further up the viewport
      (as `-rect.top` grows), for a fixed hero height. */
  lemma ProgressMonotone(top: real, top': real, height: real)
    requires top' <= top
    ensures Progress(Rect(top, height)) <= Progress(Rect(top', height))
  {
    var h := Max(height, 1.0);
    var s := Min(Max(-top, 0.0), h);
    var s' := Min(Max(-top', 0.0), h);
    assert s <= s';
    DivMonotone(s, s', h * FadeFactor);
  }

  /** The inline style of the hero name: opacity, vertical shift (px) and scale. */
  datatype NameStyle = NameStyle(opacity: real, translateY: real, scale: real)

  /** The hero name's style for progress `p`. */
  function StyleFor(p: real): (st: NameStyle)
    ensures 0.0 <= p <= 1.0 ==> 0.0 <= st.opacity <= 1.0
    ensures 0.0 <= p <= 1.0 ==> -RisePx <= st.translateY <= 0.0
    ensures 0.0 <= p <= 1.0 ==> 1.0 - ShrinkBy <= st.scale <= 1.0
    ensures p == 0.0 ==> st == NameStyle(1.0, 0.0, 1.0)
    ensures p >= 1.0 ==> st.opacity == 0.0
  {
    NameStyle(Max(0.0, 1.0 - p), p * -RisePx, 1.0 - p * ShrinkBy)
  }

  /** More progress never makes the name more visible, lower or larger. */
  lemma StyleMonotone(p: real, p': real)
    requires p <= p'
    ensures StyleFor(p').opacity <= StyleFor(p).opacity
    ensures StyleFor(p').translateY <= StyleFor(p).translateY
    ensures StyleFor(p').scale <= StyleFor(p).scale
  {
  }

  /** The vertical offset a navigation click scrolls to, given the section's
      viewport top, the current scroll offset and the header height. */
  function ScrollTarget(sectionTop: real, scrollY: real, header: Option<nat>): (y: real)
    ensures (sectionTop + scrollY) - y == HeaderHeight(header) as real + SectionGap
  {
    sectionTop + scrollY - HeaderHeight(header) as real - SectionGap
  }

  /** Where a navigation click lands. Once the page has scrolled to the
      target, the section's top edge sits exactly `SectionGap` px below the
      header, so it is never hidden under it. The target is a document
      position: it depends on the section's position in the document
      (viewport top plus scroll offset), not on where the page happens to be
      scrolled, and a taller header yields an earlier target. */
  lemma ScrollTargetLanding(sectionTop: real, scrollY: real, sectionTop': real, scrollY': real,
                            header: Option<nat>, header': Option<nat>)
    ensures var y := ScrollTarget(sectionTop, scrollY, header);
            (sectionTop + scrollY) - y == HeaderHeight(header) as real + SectionGap
    ensures var y := ScrollTarget(sectionTop, scrollY, header);
            (sectionTop + scrollY) - y > HeaderHeight(header) as real
    ensures sectionTop + scrollY == sectionTop' + scrollY' ==>
              ScrollTarget(sectionTop, scrollY, header) == ScrollTarget(sectionTop', scrollY', header)
    ensures HeaderHeight(header) <= HeaderHeight(header') ==>
              ScrollTarget(sectionTop, scrollY, header') <= ScrollTarget(sectionTop, scrollY, header)
  {
  }

  /** Scenario: a 500 px hero scrolled 200 px past is half faded. */
  lemma HalfwayScenario()
    ensures Progress(Rect(-200.0, 500.0)) == 0.5
  {
  }
}

=== FILE: shuffle.dfy ===
/** The Shuffle text effect (src/components/Shuffle.jsx) as a pure state
    machine over its refs: what the host element shows, the strip list,
    the playing flag, the running timeline, and the ready flag. The gsap
    tweens themselves (easing, interpolation, callbacks other than
    completion) are outside the model; a timeline is recorded as which
    strips are tweened to their final offsets, and when. */
module Shuffle {
  import opened Wrappers
  import opened Strips
  import Parity
  import RootMargin

  /** The props the logic reads. */
  datatype Props = Props(
    text: Option<string>,
    direction: string,
    duration: real,
    shuffleTimes: real,
    mode: string,
    loop: bool,
    stagger: real,
    charset: string,
    threshold: real,
    rootMargin: string,
    triggerOnHover: bool)

  /** The animation mode that schedules odd strips, then even strips. */
  const EvenOdd: string := "evenodd"

  /** What the host element holds: plain text, or the laid-out pieces. */
  datatype Content = PlainText(text: string) | Laid(pieces: seq<Piece>)

  /** One tween: every target strip moves to its final offset, starting at
      time `at` (seconds), successive targets `stagger` seconds apart. */
  datatype Tween = Tween(targets: seq<Strip>, at: real, stagger: real)

  /** A timeline: the even/odd groups, or one tween per strip at a random
      delay in [0, maxDelay] (the delays are not modelled). */
  datatype Timeline = Grouped(tweens: seq<Tween>) | Scattered(strips: seq<Strip>)

  /** The component's refs and ready flag; `host` is None while the host
      element is not mounted. */
  datatype State = State(host: Option<Content>, strips: seq<Strip>, playing: bool,
                         timeline: Option<Timeline>, ready: bool)

  /** JavaScript falsiness of the `text` prop. */
  predicate Falsy(text: Option<string>) {
    text.None? || text.value == ""
  }

  /** `teardown`: kill the timeline, restore the host's plain text (empty for
      a falsy prop), forget the strips, and stop playing. */
  function Teardown(s: State, text: Option<string>): (r: State)
    ensures r.strips == [] && !r.playing && r.timeline.None? && r.ready == s.ready
    ensures s.host.None? ==> r.host.None?
    ensures s.host.Some? ==> r.host == Some(PlainText(text.GetOr("")))
    ensures s.host.Some? && Falsy(text) ==> r.host == Some(PlainText(""))
  {
    var host := if s.host.Some? then Some(PlainText(text.GetOr(""))) else None;
    State(host, [], false, None, s.ready)
  }

  /** `build`: tear down, then (with a mounted host and a non-empty text) lay
      the text out as spaces and strips. */
  function Build(s: State, p: Props, width: char -> real, draw: (nat, nat) -> real): (r: State)
    requires ValidDraws(draw)
    ensures !r.playing && r.timeline.None? && r.ready == s.ready
    ensures s.host.None? || Falsy(p.text) ==> r == Teardown(s, p.text) && r.strips == []
    ensures s.host.Some? && !Falsy(p.text) ==>
              && r.host.Some? && r.host.value.Laid?
              && |r.host.value.pieces| == |p.text.value|
              && (forall i :: 0 <= i < |p.text.value| ==>
                    (r.host.value.pieces[i].Space? <==> p.text.value[i] == ' '))
              && r.strips == StripsOf(r.host.value.pieces)
              && |r.strips| == |NonSpaces(p.text.value)|
              && (forall j :: 0 <= j < |r.strips| ==>
                    r.strips[j].ch == NonSpaces(p.text.value)[j]
                    && |r.strips[j].glyphs| == Rolls(p.shuffleTimes) + 2)
    ensures s.host.Some? && !Falsy(p.text) ==>
              forall i :: 0 <= i < |p.text.value| ==>
                r.host.value.pieces[i]
                  == PieceAt(p.text.value[i], i, Rolls(p.shuffleTimes), p.direction, p.charset, width, draw)
  {
    var t := Teardown(s, p.text);
    if s.host.None? || Falsy(p.text) then t
    else
      var text := p.text.value;
      var rolls := Rolls(p.shuffleTimes);
      var pieces := Pieces(text, rolls, p.direction, p.charset, width, draw);
      StripsFollowText(text, rolls, p.direction, p.charset, width, draw);
      t.(host := Some(Laid(pieces)), strips := StripsOf(pieces))
  }

  /** All strips a list of tweens moves, in order. */
  function Targets(tws: seq<Tween>): seq<Strip>
    decreases |tws|
  {
    if |tws| == 0 then [] else tws[0].targets + Targets(tws[1..])
  }

  /** The group tweens of even/odd mode: the odd group at time 0 and the
      even group at `evenStart`, each only when non-empty. */
  function GroupTweens(odd: seq<Strip>, even: seq<Strip>, evenStart: real, stagger: real): (tws: seq<Tween>)
    ensures Targets(tws) == odd + even
    ensures forall k :: 0 <= k < |tws| ==> |tws[k].targets| > 0 && tws[k].stagger == stagger
    ensures |odd| > 0 && |even| > 0 ==> tws == [Tween(odd, 0.0, stagger), Tween(even, evenStart, stagger)]
    ensures |odd| > 0 && |even| == 0 ==> tws == [Tween(odd, 0.0, stagger)]
    ensures |odd| == 0 && |even| > 0 ==> tws == [Tween(even, evenStart, stagger)]
    ensures |odd| == 0 && |even| == 0 ==> tws == []
  {
    var a := if |odd| > 0 then [Tween(odd, 0.0, stagger)] else [];
    var b := if |even| > 0 then [Tween(even, evenStart, stagger)] else [];
    if |odd| > 0 && |even| > 0 then
      assert (a + b)[1..] == b;
      assert Targets(b) == even + Targets([]);
      a + b
    else if |odd| > 0 then
      assert Targets(a) == odd + Targets([]);
      assert even == [];
      a
    else if |even| > 0 then
      assert Targets(b) == even + Targets([]);
      assert odd == [];
      b
    else
      assert odd + even == [];
      []
  }

  /** The tweens `play` adds: in even/odd mode the odd strips at time 0 and
      the even strips at `EvenStart`; otherwise one tween per strip. */
  function Schedule(strips: seq<Strip>, p: Props): (t: Timeline)
    ensures p.mode != EvenOdd ==> t == Scattered(strips)
    ensures p.mode == EvenOdd ==> t.Grouped?
    ensures p.mode == EvenOdd ==> Targets(t.tweens) == Parity.Odds(strips) + Parity.Evens(strips)
    ensures p.mode == EvenOdd ==>
              forall k :: 0 <= k < |t.tweens| ==> |t.tweens[k].targets| > 0 && t.tweens[k].stagger == p.stagger
    ensures p.mode == EvenOdd && |strips| >= 2 ==>
              && |t.tweens| == 2
              && t.tweens[0].targets == Parity.Odds(strips) && t.tweens[0].at == 0.0
              && t.tweens[1].targets == Parity.Evens(strips)
              && t.tweens[1].at == Parity.EvenStart(p.duration, p.stagger, |Parity.Odds(strips)|)
    ensures p.mode == EvenOdd && |strips| == 1 ==> t.tweens == [Tween(strips, 0.0, p.stagger)]
    ensures p.mode == EvenOdd && |strips| == 0 ==> t.tweens == []
  {
    if p.mode == EvenOdd then
      var odd := Parity.Odds(strips);
      var even := Parity.Evens(strips);
      assert |strips| == 1 ==> even == strips;
      Grouped(GroupTweens(odd, even, Parity.EvenStart(p.duration, p.stagger, |odd|), p.stagger))
    else Scattered(strips)
  }

  /** `play`: nothing without strips; otherwise start playing a new timeline. */
  function Play(s: State, p: Props): (r: State)
    ensures |s.strips| == 0 ==> r == s
    ensures |s.strips| > 0 ==>
              && r.playing && r.timeline == Some(Schedule(s.strips, p))
              && r.strips == s.strips && r.host == s.host && r.ready == s.ready
  {
    if |s.strips| == 0 then s
    else s.(playing := true, timeline := Some(Schedule(s.strips, p)))
  }

  /** The scroll trigger's `onEnter`: play, and mark the component ready. */
  function Enter(s: State, p: Props): (r: State)
    ensures r.ready
    ensures |s.strips| == 0 ==> r == s.(ready := true)
    ensures |s.strips| > 0 ==> r.playing && r.strips == s.strips && r.timeline == Some(Schedule(s.strips, p))
    ensures r.host == s.host
  {
    Play(s, p).(ready := true)
  }

  /** The hover handler: ignored unless hover is enabled and nothing is
      playing; otherwise rebuild and replay. */
  function Hover(s: State, p: Props, width: char -> real, draw: (nat, nat) -> real): (r: State)
    requires ValidDraws(draw)
    ensures !p.triggerOnHover || s.playing ==> r == s
    ensures p.triggerOnHover && !s.playing ==> r == Play(Build(s, p, width, draw), p)
  {
    if !p.triggerOnHover || s.playing then s
    else Play(Build(s, p, width, draw), p)
  }

  /** The timeline's `onComplete`: playing stops. A looping timeline repeats
      forever and never completes. */
  function Complete(s: State, p: Props): (r: State)
    ensures p.loop ==> r == s
    ensures !p.loop ==> !r.playing && r.strips == s.strips && r.host == s.host
    ensures !p.loop ==> r == s.(playing := false)
  {
    if p.loop then s else s.(playing := false)
  }

  /** The effect's cleanup on unmount or prop change. */
  function Unmount(s: State, p: Props): (r: State)
    ensures !r.ready && r.strips == [] && !r.playing && r.timeline.None?
    ensures s.host.Some? ==> r.host == Some(PlainText(p.text.GetOr("")))
    ensures s.host.None? ==> r.host.None?
  {
    Teardown(s, p.text).(ready := false)
  }

  /** Once a play has started, hovering changes nothing until it completes. */
  lemma HoverIgnoredWhilePlaying(s: State, p: Props, width: char -> real, draw: (nat, nat) -> real)
    requires ValidDraws(draw) && |s.strips| > 0
    ensures Hover(Play(s, p), p, width, draw) == Play(s, p)
  {
  }

  /** Building and tearing down restores the host's original text, whatever
      was laid out in between. */
  lemma TeardownRestoresText(s: State, p: Props, width: char -> real, draw: (nat, nat) -> real)
    requires ValidDraws(draw) && s.host.Some?
    ensures Teardown(Build(s, p, width, draw), p.text).host == Some(PlainText(p.text.GetOr("")))
  {
  }

  /** An empty text yields no strips, so playing it does nothing. */
  lemma EmptyTextPlaysNothing(s: State, p: Props, width: char -> real, draw: (nat, nat) -> real)
    requires ValidDraws(draw) && Falsy(p.text)
    ensures Build(s, p, width, draw).strips == []
    ensures Play(Build(s, p, width, draw), p) == Build(s, p, width, draw)
  {
  }

  /** The scroll trigger's start position for the props. */
  function TriggerStart(p: Props, fmt: real -> string): (t: string)
    ensures |t| >= 5 && t[..4] == "top "
    ensures var head := RootMargin.StartHead(p.threshold, fmt);
            |head| <= |t| && t[..|head|] == head
            && t[|head|..] == RootMargin.ShiftText(RootMargin.SignShift(RootMargin.Resolve(p.rootMargin)), fmt)
    ensures var head := RootMargin.StartHead(p.threshold, fmt);
            var sh := RootMargin.SignShift(RootMargin.Resolve(p.rootMargin));
            && (sh.NoShift? ==> t == head)
            && (sh.Minus? ==> t == head + "-=" + fmt(sh.magnitude) + RootMargin.UnitText(sh.unit))
            && (sh.Plus? ==> t == head + "+=" + fmt(sh.magnitude) + RootMargin.UnitText(sh.unit))
  {
    RootMargin.StartText(p.threshold, p.rootMargin, fmt)
  }

  /** What the component's refs keep consistent: the strip list is exactly
      the strips laid out in the host (none while the host shows plain text
      or is not mounted), a timeline only exists over strips, and playing
      implies a timeline. */
  predicate Inv(s: State) {
    && (s.host.Some? && s.host.value.Laid? ==> s.strips == StripsOf(s.host.value.pieces))
    && (s.host.None? || s.host.value.PlainText? ==> s.strips == [])
    && (s.timeline.Some? ==> |s.strips| > 0)
    && (s.playing ==> s.timeline.Some?)
  }

  /** The component after its first render and before its effect runs: the
      host element is rendered without children, so it shows no text. */
  function Initial(): (s: State)
    ensures Inv(s) && !s.playing && !s.ready && s.strips == [] && s.host == Some(PlainText(""))
  {
    State(Some(PlainText("")), [], false, None, false)
  }

  /** The lifecycle events: the effect's setup (`build`), the trigger's
      `onEnter`, a `mouseenter`, the timeline's completion, and cleanup. */
  datatype Event = Mount | EnterView | MouseEnter | TimelineDone | Cleanup

  /** One lifecycle event. */
  function Step(s: State, p: Props, width: char -> real, draw: (nat, nat) -> real, e: Event): (r: State)
    requires ValidDraws(draw)
    ensures Inv(s) ==> Inv(r)
  {
    match e
    case Mount => Build(s, p, width, draw)
    case EnterView => Enter(s, p)
    case MouseEnter => Hover(s, p, width, draw)
    case TimelineDone => Complete(s, p)
    case Cleanup => Unmount(s, p)
  }

  /** A run of lifecycle events from left to right. */
  function Run(s: State, p: Props, width: char -> real, draw: (nat, nat) -> real, evs: seq<Event>): (r: State)
    requires ValidDraws(draw)
    ensures Inv(s) ==> Inv(r)
    decreases |evs|
  {
    if |evs| == 0 then s else Run(Step(s, p, width, draw, evs[0]), p, width, draw, evs[1..])
  }

  /** Every state the component reaches from its initial render keeps the
      invariant, so it never plays without strips and its strip list always
      matches what the host shows. */
  lemma {:induction false} ReachableInv(p: Props, width: char -> real, draw: (nat, nat) -> real, evs: seq<Event>)
    requires ValidDraws(draw)
    ensures Inv(Run(Initial(), p, width, draw, evs))
    ensures var r := Run(Initial(), p, width, draw, evs);
            r.playing ==> r.host.Some? && r.host.value.Laid? && |r.strips| > 0
  {
  }
}

=== FILE: strips.dfy ===
/** The strip layout `build` / `mkCharStrip` produce in
    src/components/Shuffle.jsx, without the DOM: every non-space character
    becomes a strip of glyphs that slides horizontally inside a window one
    glyph wide; a space becomes a plain space. Glyph widths are measured by
    the browser and enter as the input `width`; the scramble choice uses
    `Math.random` and enters as the input `draw`. */
module Strips {

  /** One strip: the source character, the measured glyph width (the
      window's width), the glyphs left to right, and the horizontal offset the
      strip starts at and is animated to. */
  datatype Strip = Strip(ch: char, width: real, glyphs: seq<char>, startX: real, finalX: real)

  /** What one source character lays out as. */
  datatype Piece = Space | Wrapped(strip: Strip)

  /** The direction value that slides strips in from the left. */
  const Right: string := "right"

  function Abs(x: real): real { if x < 0.0 then -x else x }

  /** `Math.max(1, Math.floor(shuffleTimes))`: how many scramble glyphs a strip carries. */
  function Rolls(shuffleTimes: real): (n: int)
    ensures n >= 1 && n >= shuffleTimes.Floor
    ensures n == 1 || n == shuffleTimes.Floor
  {
    if shuffleTimes.Floor > 1 then shuffleTimes.Floor else 1
  }

  /** A source of `Math.random()` results: draw(i, k) is the value used for
      the k-th scramble glyph of the character at text position i. */
  ghost predicate ValidDraws(draw: (nat, nat) -> real) {
    forall i: nat, k: nat :: 0.0 <= draw(i, k) < 1.0
  }

  /** A random value in [0, 1) scaled by n > 0 and floored is a valid index. */
  lemma ScaledIndex(d: real, n: nat)
    requires 0.0 <= d < 1.0 && n > 0
    ensures 0 <= (d * n as real).Floor < n
  {
    assert d * n as real < n as real;
  }

  /** One scramble glyph: a character of `charset` picked by the draw `d`,
      or the source character when the charset is empty. */
  function ScrambleGlyph(ch: char, charset: string, d: real): (g: char)
    requires 0.0 <= d < 1.0
    ensures |charset| == 0 ==> g == ch
    ensures |charset| > 0 ==> g in charset
  {
    if |charset| == 0 then ch
    else
      ScaledIndex(d, |charset|);
      charset[(d * |charset| as real).Floor]
  }

  /** The `n` scramble glyphs of the character at position `i`, in creation order. */
  function Middles(ch: char, charset: string, i: nat, n: nat, draw: (nat, nat) -> real): (ms: seq<char>)
    requires ValidDraws(draw)
    ensures |ms| == n
    ensures forall k :: 0 <= k < n ==> (|charset| == 0 ==> ms[k] == ch) && (|charset| > 0 ==> ms[k] in charset)
    decreases n
  {
    if n == 0 then []
    else Middles(ch, charset, i, n - 1, draw) + [ScrambleGlyph(ch, charset, draw(i, n - 1))]
  }

  /** The strip for the non-space character `ch` at text position `i`.
      Built as original, `rolls` scramble glyphs, real; for direction
      "right" the real glyph is moved to the front and the strip slides
      from -(rolls+1) widths to 0, otherwise it slides from 0 to -(rolls+1)
      widths. */
  function MkStrip(ch: char, i: nat, rolls: int, direction: string, charset: string,
                   width: real, draw: (nat, nat) -> real): (st: Strip)
    requires rolls >= 1 && ValidDraws(draw)
    ensures st.ch == ch && st.width == width
    ensures |st.glyphs| == rolls + 2
    ensures direction == Right ==>
              && st.glyphs[0] == ch && st.glyphs[1] == ch
              && st.startX == -((rolls + 1) as real * width) && st.finalX == 0.0
    ensures direction != Right ==>
              && st.glyphs[0] == ch && st.glyphs[rolls + 1] == ch
              && st.startX == 0.0 && st.finalX == -((rolls + 1) as real * width)
    ensures Abs(st.startX - st.finalX) == (rolls + 1) as real * Abs(width)
    ensures |charset| == 0 ==> forall k :: 0 <= k < |st.glyphs| ==> st.glyphs[k] == ch
    ensures forall k :: 0 <= k < |st.glyphs| ==> st.glyphs[k] == ch || st.glyphs[k] in charset
    ensures |charset| > 0 ==>
              forall k :: 1 <= k <= rolls ==>
                (if direction == Right then st.glyphs[k + 1] else st.glyphs[k]) in charset
  {
    var mids := Middles(ch, charset, i, rolls, draw);
    var travel := -((rolls + 1) as real * width);
    if direction == Right then
      Strip(ch, width, [ch] + [ch] + mids, travel, 0.0)
    else
      Strip(ch, width, [ch] + mids + [ch], 0.0, travel)
  }

  /** The "right" strip is the default strip with its last glyph, the real
      one, rotated to the front; scramble glyphs and travel are shared. */
  lemma RightIsRotation(ch: char, i: nat, rolls: int, other: string, charset: string,
                        width: real, draw: (nat, nat) -> real)
    requires rolls >= 1 && ValidDraws(draw) && other != Right
    ensures var l := MkStrip(ch, i, rolls, other, charset, width, draw).glyphs;
            MkStrip(ch, i, rolls, Right, charset, width, draw).glyphs == [l[rolls + 1]] + l[..rolls + 1]
  {
    var mids := Middles(ch, charset, i, rolls, draw);
    var l := [ch] + mids + [ch];
    assert l[..rolls + 1] == [ch] + mids;
  }

  /** The glyph visible through the one-glyph window when the strip sits at
      offset `x`, if any. */
  function GlyphAt(st: Strip, x: real): char
    requires st.width > 0.0
  {
    var idx := (-x / st.width).Floor;
    if 0 <= idx < |st.glyphs| then st.glyphs[idx] else ' '
  }

  /** Whatever the direction, a strip comes to rest showing its source
      character; with direction other than "right" it also starts on it. */
  lemma RestsOnSourceChar(ch: char, i: nat, rolls: int, direction: string, charset: string,
                          width: real, draw: (nat, nat) -> real)
    requires rolls >= 1 && ValidDraws(draw) && width > 0.0
    ensures GlyphAt(MkStrip(ch, i, rolls, direction, charset, width, draw),
                    MkStrip(ch, i, rolls, direction, charset, width, draw).finalX) == ch
    ensures direction != Right ==>
              GlyphAt(MkStrip(ch, i, rolls, direction, charset, width, draw),
                      MkStrip(ch, i, rolls, direction, charset, width, draw).startX) == ch
  {
    var st := MkStrip(ch, i, rolls, direction, charset, width, draw);
    var steps := (rolls + 1) as real;
    assert steps * width / width == steps;
    if direction == Right {
      assert -st.finalX / width == 0.0;
    } else {
      assert -st.finalX / width == steps;
      assert (-st.finalX / width).Floor == rolls + 1;
      assert -st.startX / width == 0.0;
    }
  }

  /** The layout of one character. */
  function PieceAt(c: char, i: nat, rolls: int, direction: string, charset: string,
                   width: char -> real, draw: (nat, nat) -> real): Piece
    requires rolls >= 1 && ValidDraws(draw)
  {
    if c == ' ' then Space else Wrapped(MkStrip(c, i, rolls, direction, charset, width(c), draw))
  }

  /** The pieces of `text`, one per character, in text order. */
  function Pieces(text: string, rolls: int, direction: string, charset: string,
                  width: char -> real, draw: (nat, nat) -> real): (ps: seq<Piece>)
    requires rolls >= 1 && ValidDraws(draw)
    ensures |ps| == |text|
    ensures forall i :: 0 <= i < |text| ==> ps[i] == PieceAt(text[i], i, rolls, direction, charset, width, draw)
    decreases |text|
  {
    if |text| == 0 then []
    else
      var n := |text| - 1;
      Pieces(text[..n], rolls, direction, charset, width, draw)
        + [PieceAt(text[n], n, rolls, direction, charset, width, draw)]
  }

  /** The strips among the pieces, in order (what `stripsRef` collects). */
  function StripsOf(ps: seq<Piece>): seq<Strip>
    decreases |ps|
  {
    if |ps| == 0 then []
    else
      var n := |ps| - 1;
      StripsOf(ps[..n]) + (if ps[n].Wrapped? then [ps[n].strip] else [])
  }

  /** The non-space characters of `text`, in order. */
  function NonSpaces(text: string): seq<char>
    decreases |text|
  {
    if |text| == 0 then []
    else
      var n := |text| - 1;
      NonSpaces(text[..n]) + (if text[n] != ' ' then [text[n]] else [])
  }

  /** Appending one piece appends its strip, if it has one. */
  lemma StripsOfSnoc(ps: seq<Piece>, x: Piece)
    ensures StripsOf(ps + [x]) == StripsOf(ps) + (if x.Wrapped? then [x.strip] else [])
  {
    assert (ps + [x])[..|ps|] == ps;
  }

  /** Pieces that follow a text one for one (a space for each space, a strip
      of `n` glyphs carrying the character otherwise) yield strips that follow
      the text's non-space characters one for one, in order. */
  lemma {:induction false} StripsFollowChars(ps: seq<Piece>, text: string, n: int)
    requires |ps| == |text|
    requires forall i :: 0 <= i < |ps| ==> (ps[i].Space? <==> text[i] == ' ')
    requires forall i :: 0 <= i < |ps| && ps[i].Wrapped? ==> ps[i].strip.ch == text[i] && |ps[i].strip.glyphs| == n
    ensures |StripsOf(ps)| == |NonSpaces(text)|
    ensures forall j :: 0 <= j < |StripsOf(ps)| ==>
              StripsOf(ps)[j].ch == NonSpaces(text)[j] && |StripsOf(ps)[j].glyphs| == n
    decreases |ps|
  {
    if |ps| > 0 {
      var k := |ps| - 1;
      var pre := ps[..k];
      StripsFollowChars(pre, text[..k], n);
      assert pre + [ps[k]] == ps;
      StripsOfSnoc(pre, ps[k]);
      assert NonSpaces(text) == NonSpaces(text[..k]) + (if text[k] != ' ' then [text[k]] else []);
    }
  }

  /** The strips of a laid-out text follow its non-space characters one for
      one, in text order, and each carries rolls + 2 glyphs. */
  lemma StripsFollowText(text: string, rolls: int, direction: string, charset: string,
                         width: char -> real, draw: (nat, nat) -> real)
    requires rolls >= 1 && ValidDraws(draw)
    ensures |StripsOf(Pieces(text, rolls, direction, charset, width, draw))| == |NonSpaces(text)|
    ensures forall j :: 0 <= j < |NonSpaces(text)| ==>
              && StripsOf(Pieces(text, rolls, direction, charset, width, draw))[j].ch == NonSpaces(text)[j]
              && |StripsOf(Pieces(text, rolls, direction, charset, width, draw))[j].glyphs| == rolls + 2
  {
    var ps := Pieces(text, rolls, direction, charset, width, draw);
    StripsFollowChars(ps, text, rolls + 2);
  }

  /** A text without the space character keeps every character as a strip. */
  lemma {:induction false} NoSpaceKeepsAll(text: string)
    requires forall i :: 0 <= i < |text| ==> text[i] != ' '
    ensures NonSpaces(text) == text
    decreases |text|
  {
    if |text| > 0 {
      var n := |text| - 1;
      NoSpaceKeepsAll(text[..n]);
      assert text[..n] + [text[n]] == text;
    }
  }

  /** The hero name is written with no-break spaces, which are not the space
      character: all nine characters become strips. */
  lemma HeroNameHasNineStrips()
    ensures |NonSpaces("SHIVU\U{00A0}T\U{00A0}J")| == 9
  {
    NoSpaceKeepsAll("SHIVU\U{00A0}T\U{00A0}J");
  }
}

=== FILE: wrappers.dfy ===
/** The optional-value type shared by the model: a missing DOM node, a
    missing attribute or a rejected parse is `None`. */
module Wrappers {

  datatype Option<+T> = None | Some(value: T) {

    /** The carried value, or `default` when there is none (JavaScript's `x || d`
        for values whose only falsy form is absence). */
    function GetOr(default: T): T {
      match this
      case Some(v) => v
      case None => default
    }
  }
}
